=== FILE: README.md ===
# GasWay core, modelled in Dafny

GasWay is a small desktop program for the Spanish government's petrol-station
price dataset. It downloads the list of stations, normalises it into a table,
and offers four computations on that table:

- the fuels a user can pick: the columns whose name contains "Precio";
- the cheapest ten stations of a city for a fuel, with the city matched
  without regard to case and only positive prices kept;
- the station nearest to the user that sells a fuel at a positive price;
- the three numbers of the comparison chart: the chosen station's price, the
  mean price in its municipality and the national mean.

This project models those computations as pure functions over immutable data:

- `Text`: Python's `str.strip`, `str.replace(",", ".")`, `str.lower` and substring tests.
- `Decimal`: the numeric parse pandas applies with `errors="coerce"`, restricted to plain decimal notation, plus a fixed-point renderer that is its partner.
- `Seqs`: order-preserving selection (boolean masks).
- `Ranking`: `nsmallest` (a stable sort by key, then a cut) and `idxmin` (first minimum).
- `Stations`: the loaded table, its columns and its error kinds.
- `Loader`: the load step `obtener_datos` and the fuel labels.
- `Search`: `filtrar_gasolineras`.
- `Nearest`: `gasolinera_mas_cercana`. The geodesic distance is a function parameter `dist`.
- `Compare`: the arithmetic of `mostrar_graficos`.

A raw record is a map from column name to text. A column a record lacks
plays the part of pandas' missing value. A failed numeric parse is `None`,
which plays the part of NaN. A missing column raises `KeyError` in pandas.
A fuel that is not a price column raises `KeyError` when no such column
exists, and `TypeError` when it names a text column such as "Rótulo",
because a text value is compared with 0 (main.py:48 and main.py:53; when no
station is in the city, `nsmallest` at main.py:49 raises it instead). Each of
these becomes an `Err` of the `Stations.Error` datatype. When no station
sells the fuel, main.py:54-57 raises before any station is chosen; the model
returns `Err(NoCandidate)` there.

`RawTable.columns` stands for the DataFrame's columns. pandas takes them from
the record keys, in order of first appearance (main.py:17).

Two facts about the code hold in the model too:

- loading checks no latitude or longitude range;
- the city and national means count zero prices and skip only missing ones.

## Model

| member | source | states |
|---|---|---|
| Text.Strip | main.py:19-20 | the result is a slice of the input with only whitespace cut off either side, and it neither starts nor ends with whitespace |
| Text.StripIdempotent | main.py:19-20 | stripping a stripped field changes nothing |
| Text.StripPadded | main.py:19-20 | any whitespace padding around a trimmed non-empty value is removed exactly |
| Text.ReplaceComma | main.py:23 | every comma becomes a period, every other character is kept, and no comma is left |
| Text.Lower | main.py:47 | character-wise lowering, after which no capital remains |
| Text.LowerIdempotent | main.py:47 | lowering twice is lowering once |
| Text.ContainsIff | main.py:22 | the substring test holds exactly when the pattern occurs at some position |
| Decimal.ParseDecimalAcceptsGrammar | main.py:24 | the numeric parse succeeds exactly on an optional sign followed by digits with at most one period and at least one digit |
| Decimal.ParseDecimalChars | main.py:24 | whatever parses is made of digits, periods and signs only |
| Decimal.ParseShowFixed | main.py:24 | parsing the period rendering of a signed fixed-point number gives back its value |
| Decimal.ParseDigits | main.py:24 | a digit string without a period, leading zeros included, parses to the number it denotes |
| Decimal.ParseUnsignedAt | main.py:24 | digits, a period and digits, with either side possibly empty, parse to the whole part plus the fraction |
| Decimal.ParseLeadingPoint | main.py:24 | a fraction with no whole part, as ".5" (the dataset's ",5" once its comma is replaced), is worth its fractional digits |
| Decimal.ParseDecimalPlus | main.py:24 | a leading plus keeps the unsigned value |
| Decimal.ParseDecimalMinus | main.py:24 | a leading minus negates the unsigned value |
| Decimal.ParseDecimalUnsigned | main.py:24 | text without a leading sign parses as the unsigned text does |
| Loader.ParseField | main.py:20-24 | a numeric field has a value exactly when the stripped, comma-replaced text is in the decimal grammar |
| Loader.ParseFieldRoundTrip | main.py:20-28 | a number written with a decimal comma and any surrounding whitespace loads as the number it denotes |
| Loader.CommaRenderingReplaced | main.py:23-26 | the comma rendering becomes the period rendering once its comma is replaced |
| Loader.Normalise | main.py:19-29 | a record becomes a station exactly when both of its coordinates parse; the station sits at the parsed (latitude, longitude), has one price entry per price column holding that field's parse, and keeps every other non-coordinate field the record has, stripped |
| Loader.Load | main.py:25-29 | loading fails, naming "Latitud" before "Longitud (WGS84)", exactly when a coordinate column is missing; otherwise the columns are kept and no rows are added |
| Loader.LoadKeepsParsable | main.py:19-29 | the loaded rows are exactly the records whose latitude and longitude both parse, each normalised, in dataset order |
| Loader.CoordinatesAreNotPrices | main.py:21-28 | neither coordinate column is a price column |
| Loader.PriceNeverDropsRecord | main.py:21-29 | whatever text a price field holds, the record is kept exactly when it was before, and only that price changes, to the parse of the new text |
| Loader.UnparsedPriceIsAbsent | main.py:24 | a missing or unparseable price becomes absent while its record is still kept |
| Loader.TextFieldsStripped | main.py:19-20 | a station's text fields are exactly the record's text columns that have a value, each the raw field with only surrounding whitespace cut off, and trimmed |
| Loader.CoordinatesRoundTrip | main.py:25-29 | a record whose latitude and longitude are written with a decimal comma and any surrounding whitespace is kept, at the two numbers written |
| Loader.PricesFollowFuelLabels | main.py:21-24 | every loaded station has one price entry per price column and no other |
| Stations.FuelLabels | main.py:33 | the fuel labels are exactly the columns containing "Precio" |
| Stations.FuelLabelsAppend | main.py:33 | the labels of two column runs are the labels of each run, in column order |
| Ranking.Rank | main.py:49 | every candidate position is listed once, in strictly ascending key order with ties in dataset order |
| Ranking.Smallest | main.py:49 | the first min(k, n) ranked positions: each ranks before every candidate left out, and all are kept when there are at most k |
| Ranking.Least | main.py:57 | the first minimum: the chosen position ranks before every other candidate, and there is none only for no candidates |
| Ranking.LeastIsFirstRanked | main.py:57 | the first minimum is the head of the stable ranking |
| Ranking.RankedUnique | main.py:49 | two rankings of the same positions are the same sequence, so a stable order by key is unique |
| Ranking.SmallestIsRepeatedLeast | main.py:49 | the stable sort-and-cut equals taking the first minimum, removing it and repeating k times |
| Search.Candidates | main.py:47-48 | the candidates are exactly the positions whose municipality matches the city without regard to case and whose price is positive, in dataset order |
| Search.SearchPositions | main.py:46-49 | the search fails exactly when "Municipio" is missing or the fuel is not a price column; otherwise it returns min(10, n) qualifying positions in ranked order, each cheaper than, or as cheap as and earlier than, every qualifying station left out |
| Search.SearchStations | main.py:46-49 | fails exactly when "Municipio" is missing or the fuel is not a price column; otherwise returns min(10, n) stations of the table, each in the city with a positive price, prices ascending, equal prices in dataset order, and every qualifying station cheaper than a returned one is returned too |
| Search.SearchSortedStable | main.py:49 | returned prices ascend, and equal prices keep dataset order |
| Search.SearchKeepsCheapest | main.py:49 | no qualifying station left out is cheaper than one returned |
| Search.SearchReturnsAllWhenFew | main.py:49 | with at most ten qualifying stations all are returned, and with none the result is empty |
| Search.SearchIsRepeatedCheapest | main.py:46-49 | the search result equals picking the cheapest remaining candidate ten times |
| Search.InCityIgnoresCase | main.py:47 | lowering the city first makes no difference to the match |
| Nearest.Sellers | main.py:53 | exactly the positions with a positive price, in dataset order |
| Nearest.NearestPosition | main.py:52-57 | fails with UnknownFuel for a non-price column and with NoCandidate when nothing sells; otherwise the result sells, is no farther than any seller and strictly nearer than every earlier seller |
| Nearest.NearestStation | main.py:52-57 | fails with UnknownFuel or NoCandidate exactly as the position does; otherwise a station of the table that sells the fuel, no farther than any seller, at a position before which every seller is strictly farther |
| Nearest.NearestIsFirstByDistance | main.py:54-57 | the nearest position is the head of the sellers ranked by distance with ties in dataset order |
| Compare.Mean | main.py:88-89 | the mean has no value exactly over no values; its value is fixed by `MeanSplit` and `MeanConstant` |
| Compare.SameMunicipality | main.py:87 | the rows whose municipality equals the station's exactly, with no case folding; none when the station has no municipality |
| Compare.SameMunicipalityAt | main.py:87 | the municipality's rows are the rows at the matching positions, each once and in dataset order |
| Compare.PresentPricesAt | main.py:88-89 | the averaged prices are one per row with a present price, zeros included, in dataset order |
| Compare.CompareStation | main.py:84-89 | fails on a missing "Municipio" column first, then on a non-price fuel; otherwise the selected bar is the station's own price |
| Compare.MeanConstant | main.py:88-89 | the mean of copies of one value is that value |
| Compare.SumAppend | main.py:88-89 | the sum of two runs of values is the sum of their sums |
| Compare.MeanTimesCount | main.py:88-89 | a mean times the number of values is their sum |
| Compare.MeanSplit | main.py:88-89 | the mean of two runs is their count-weighted mean, which with the mean of one value fixes the arithmetic mean |
| Compare.MeanOfTwo | main.py:88-89 | the mean of two values is their midpoint |
| Compare.MeanBounds | main.py:88-89 | the mean lies between any lower and upper bounds of the values |
| Compare.PresentPricesMember | main.py:88-89 | the averaged prices are exactly the present prices of the rows, zeros included |
| Compare.CityMeanOfUniformCity | main.py:85-88 | when every present price in the municipality equals the station's, the city mean is that price |
| Compare.CityMeanOfSoleStation | main.py:85-88 | a station that is the only priced one of its municipality sets the city mean alone |
| Compare.MeanAbsent | main.py:88-89 | a mean of present prices is absent exactly when no row has a present price |
| Compare.CityMeanAbsent | main.py:85-88 | the city mean is absent exactly when no row of the municipality has a present price |
| Compare.NationalMeanBounds | main.py:89 | the national mean is absent exactly when no row has a price, and otherwise lies within any bounds the present prices respect |
| Compare.NationalMeanCountsZeros | main.py:89 | when all present prices are zero, the national mean is zero, not absent |
| Compare.SearchResultHasPrice | main.py:86 | a station the search returns can be compared, and its selected price is present and positive |
| Compare.NearestHasPrice | main.py:86 | the nearest station can be compared when "Municipio" exists, and its selected price is present and positive |

## Left out

- The download (main.py:14-17) and the user's location from ipinfo with its Madrid fallback (main.py:36-43) are network I/O. The model starts from the records and takes the user's position as a parameter.
- The geodesic distance (main.py:54-56) is the function parameter `dist`, and nothing is assumed about it. The `Distancia` column it adds is not kept.
- Nearest.NearestPosition: `dist` always returns a value. geopy's `geodesic` raises `ValueError` for a latitude outside [-90, 90], so when a station selling the fuel has such a latitude the program fails where the model returns a station. Loading checks no range, so such rows can reach main.py:55.
- The map, the popups and the Tk window (main.py:60-81, 91-100 and the rest of the file) are user interface and are not modelled.
- Decimal.ParseDecimal: models `pandas.to_numeric` only on plain decimal notation. Exponents, "inf", "nan", thousands separators and surrounding signs beyond one leading sign are not accepted, so such fields are absent in the model.
- Text.Lower: lowers ASCII and the Latin-1 capitals only. Other Unicode case mappings, and those that change length, are not modelled.
- Prices and coordinates are exact reals. Floating-point rounding in the parse and in the means is not modelled.
- Search.SearchPositions: the model rejects the two coordinate columns as a fuel with UnknownFuel. pandas would accept any numeric column there.
- Nearest.NearestPosition: the same coordinate-column restriction as the search.
- Compare.CompareStation: same coordinate-column restriction as the search.
- Loader.Load: the columns are taken as given, not derived from the record keys. An empty download therefore has no "Latitud" column in pandas and fails at main.py:25, while the model loads any column list naming both coordinates.
- Loader.Load: `.str` on a column that holds no strings at all raises in pandas. The model treats every delivered field as text, so that failure is not modelled.

=== FILE: compare.dfy ===
/**
 * The numbers behind the price comparison chart: the chosen station's price
 * for a fuel, the mean price of its municipality and the national mean.
 * Like pandas' `mean()`, both means skip absent prices, count zero prices,
 * and have no value over no prices.
 */
module Compare {
  import opened Wrappers
  import opened Seqs
  import opened Stations
  import opened Search
  import opened Nearest

  /** The three bars of the chart. */
  datatype Comparison = Comparison(selected: Option<real>, cityMean: Option<real>, nationalMean: Option<real>)

  function Sum(xs: seq<real>): real
    decreases |xs|
  {
    if |xs| == 0 then 0.0 else Sum(xs[..|xs| - 1]) + xs[|xs| - 1]
  }

  /** The arithmetic mean; nothing for an empty sequence. */
  function Mean(xs: seq<real>): (r: Option<real>)
    ensures r.None? <==> |xs| == 0
  {
    if |xs| == 0 then None else Some(Sum(xs) / |xs| as real)
  }

  /** Reads a station's price for `fuel`. */
  function PriceReader(fuel: string): Station -> Option<real> {
    (s: Station) => PriceOf(s, fuel)
  }

  /** A station has a present price for `fuel`, zero included. */
  function HasPrice(fuel: string): Station -> bool {
    (s: Station) => PriceOf(s, fuel).Some?
  }

  /** A station's municipality is exactly `m`; never when `m` is absent. */
  function InMunicipality(m: Option<string>): Station -> bool {
    (s: Station) => m.Some? && Municipality(s) == m
  }

  /** The present prices for `fuel` of the rows, in dataset order. */
  function PresentPrices(rows: seq<Station>, fuel: string): seq<real> {
    FilterMap(rows, PriceReader(fuel))
  }

  /** The rows whose municipality is exactly `m`; none when `m` is absent. */
  function SameMunicipality(rows: seq<Station>, m: Option<string>): (r: seq<Station>)
    ensures forall s :: s in r <==> s in rows && m.Some? && Municipality(s) == m
  {
    Filter(rows, InMunicipality(m))
  }

  /**
   * The municipality's rows are the rows at the matching positions, each
   * once and in dataset order.
   */
  lemma {:induction false} SameMunicipalityAt(rows: seq<Station>, m: Option<string>)
    ensures |SameMunicipality(rows, m)| == |Where(rows, InMunicipality(m))|
    ensures forall a :: 0 <= a < |Where(rows, InMunicipality(m))| ==>
      SameMunicipality(rows, m)[a] == rows[Where(rows, InMunicipality(m))[a]]
  {
    WhereFilter(rows, InMunicipality(m));
  }

  /**
   * The averaged prices are the prices of the rows that have one, one entry
   * per such row and in dataset order.
   */
  lemma {:induction false} PresentPricesAt(rows: seq<Station>, fuel: string)
    ensures |PresentPrices(rows, fuel)| == |Where(rows, HasPrice(fuel))|
    ensures forall a :: 0 <= a < |Where(rows, HasPrice(fuel))| ==>
      PriceOf(rows[Where(rows, HasPrice(fuel))[a]], fuel) == Some(PresentPrices(rows, fuel)[a])
  {
    FilterMapWhere(rows, PriceReader(fuel), HasPrice(fuel));
  }

  /**
   * The comparison for station `st`. The municipality column must exist and
   * the fuel must be a price column.
   */
  function CompareStation(t: Table, st: Station, fuel: string): (r: Result<Comparison, Error>)
    ensures r.Err? <==> MunicipalityColumn !in t.columns || !IsFuel(t, fuel)
    ensures r.Err? ==> r.error == if MunicipalityColumn !in t.columns then MissingColumn(MunicipalityColumn) else UnknownFuel(fuel)
    ensures r.Ok? ==> r.value.selected == PriceOf(st, fuel)
  {
    if MunicipalityColumn !in t.columns then Err(MissingColumn(MunicipalityColumn))
    else if !IsFuel(t, fuel) then Err(UnknownFuel(fuel))
    else
      Ok(Comparison(
        PriceOf(st, fuel),
        Mean(PresentPrices(SameMunicipality(t.rows, Municipality(st)), fuel)),
        Mean(PresentPrices(t.rows, fuel))))
  }

  /** The sum of `n` copies of `p`. */
  lemma {:induction false} SumConstant(xs: seq<real>, p: real)
    requires forall i :: 0 <= i < |xs| ==> xs[i] == p
    ensures Sum(xs) == |xs| as real * p
    decreases |xs|
  {
    if |xs| > 0 {
      SumConstant(xs[..|xs| - 1], p);
    }
  }

  /** The sum of a concatenation is the sum of its parts. */
  lemma {:induction false} SumAppend(xs: seq<real>, ys: seq<real>)
    ensures Sum(xs + ys) == Sum(xs) + Sum(ys)
    decreases |ys|
  {
    if |ys| == 0 {
      assert xs + ys == xs;
    } else {
      var front := ys[..|ys| - 1];
      assert (xs + ys)[..|xs + ys| - 1] == xs + front;
      assert (xs + ys)[|xs + ys| - 1] == ys[|ys| - 1];
      SumAppend(xs, front);
    }
  }

  /** A mean times the number of its values is their sum. */
  lemma {:induction false} MeanTimesCount(xs: seq<real>)
    requires |xs| > 0
    ensures |xs| as real * Mean(xs).value == Sum(xs)
  {
    var n := |xs| as real;
    assert n * (Sum(xs) / n) == Sum(xs);
  }

  /**
   * The mean of two runs of values is their count-weighted mean. Together
   * with `MeanConstant` on single values this fixes the arithmetic mean:
   * the mean of `n` values is their sum divided by `n`.
   */
  lemma {:induction false} MeanSplit(xs: seq<real>, ys: seq<real>)
    requires |xs| > 0 && |ys| > 0
    ensures (|xs| + |ys|) as real * Mean(xs + ys).value
      == |xs| as real * Mean(xs).value + |ys| as real * Mean(ys).value
  {
    SumAppend(xs, ys);
    MeanTimesCount(xs);
    MeanTimesCount(ys);
    MeanTimesCount(xs + ys);
  }

  /** The mean of copies of one value is that value. */
  lemma {:induction false} MeanConstant(xs: seq<real>, p: real)
    requires |xs| > 0 && forall i :: 0 <= i < |xs| ==> xs[i] == p
    ensures Mean(xs) == Some(p)
  {
    SumConstant(xs, p);
    var n := |xs| as real;
    assert Sum(xs) == n * p;
    assert Sum(xs) / n == p;
  }

  /** The mean of two values is their midpoint, by `MeanSplit` and `MeanConstant` alone. */
  lemma {:induction false} MeanOfTwo(a: real, b: real)
    ensures Mean([a, b]) == Some((a + b) / 2.0)
  {
    assert [a, b] == [a] + [b];
    MeanConstant([a], a);
    MeanConstant([b], b);
    MeanSplit([a], [b]);
    var m := Mean([a, b]).value;
    assert 2.0 * m == a + b;
  }

  /** A sum of values between `lo` and `hi` lies between `n * lo` and `n * hi`. */
  lemma {:induction false} SumBounds(xs: seq<real>, lo: real, hi: real)
    requires forall i :: 0 <= i < |xs| ==> lo <= xs[i] <= hi
    ensures |xs| as real * lo <= Sum(xs) <= |xs| as real * hi
    decreases |xs|
  {
    if |xs| > 0 {
      SumBounds(xs[..|xs| - 1], lo, hi);
      var n := |xs| as real;
      assert (n - 1.0) * lo + lo == n * lo;
      assert (n - 1.0) * hi + hi == n * hi;
    }
  }

  /** The mean lies between the smallest and the largest value. */
  lemma {:induction false} MeanBounds(xs: seq<real>, lo: real, hi: real)
    requires |xs| > 0 && forall i :: 0 <= i < |xs| ==> lo <= xs[i] <= hi
    ensures lo <= Mean(xs).value <= hi
  {
    SumBounds(xs, lo, hi);
    var n := |xs| as real;
    assert Sum(xs) / n >= lo by {
      assert Sum(xs) >= n * lo;
    }
    assert Sum(xs) / n <= hi by {
      assert Sum(xs) <= n * hi;
    }
  }

  /** The present prices are the prices of the rows that have one, zero prices included. */
  lemma {:induction false} PresentPricesMember(rows: seq<Station>, fuel: string)
    ensures forall y :: y in PresentPrices(rows, fuel) <==> exists s :: s in rows && PriceOf(s, fuel) == Some(y)
  {
    FilterMapMember(rows, PriceReader(fuel));
  }

  /** When every present price among `rows` is `p`, and there is one, their mean is `p`. */
  lemma {:induction false} UniformMean(rows: seq<Station>, fuel: string, p: real, st: Station)
    requires st in rows && PriceOf(st, fuel) == Some(p)
    requires forall s :: s in rows && PriceOf(s, fuel).Some? ==> PriceOf(s, fuel) == Some(p)
    ensures Mean(PresentPrices(rows, fuel)) == Some(p)
  {
    var xs := PresentPrices(rows, fuel);
    PresentPricesMember(rows, fuel);
    assert p in xs;
    assert forall i :: 0 <= i < |xs| ==> xs[i] == p by {
      forall i | 0 <= i < |xs|
        ensures xs[i] == p
      {
        assert xs[i] in xs;
      }
    }
    MeanConstant(xs, p);
  }

  /**
   * When every present price in the station's municipality equals the
   * station's own price `p`, the city mean is `p`.
   */
  lemma {:induction false} CityMeanOfUniformCity(t: Table, st: Station, fuel: string, p: real)
    requires MunicipalityColumn in t.columns && IsFuel(t, fuel)
    requires st in t.rows && Municipality(st).Some? && PriceOf(st, fuel) == Some(p)
    requires forall s :: s in t.rows && Municipality(s) == Municipality(st) && PriceOf(s, fuel).Some? ==> PriceOf(s, fuel) == Some(p)
    ensures CompareStation(t, st, fuel).value.cityMean == Some(p)
  {
    UniformMean(SameMunicipality(t.rows, Municipality(st)), fuel, p, st);
  }

  /** A station that is the only record of its municipality with a present price sets the city mean alone. */
  lemma {:induction false} CityMeanOfSoleStation(t: Table, st: Station, fuel: string)
    requires MunicipalityColumn in t.columns && IsFuel(t, fuel)
    requires st in t.rows && Municipality(st).Some? && PriceOf(st, fuel).Some?
    requires forall s :: s in t.rows && Municipality(s) == Municipality(st) && PriceOf(s, fuel).Some? ==> s == st
    ensures CompareStation(t, st, fuel).value.cityMean == PriceOf(st, fuel)
  {
    CityMeanOfUniformCity(t, st, fuel, PriceOf(st, fuel).value);
  }

  /** A row's present price is among the present prices. */
  lemma {:induction false} PresentPriceListed(rows: seq<Station>, fuel: string, s: Station)
    requires s in rows
    ensures PriceOf(s, fuel).Some? ==> PriceOf(s, fuel).value in PresentPrices(rows, fuel)
  {
    FilterMapHas(rows, PriceReader(fuel), s);
  }

  /** The mean of the present prices is absent exactly when no row has a present price. */
  lemma {:induction false} MeanAbsent(rows: seq<Station>, fuel: string)
    ensures Mean(PresentPrices(rows, fuel)).None? <==> forall s :: s in rows ==> PriceOf(s, fuel).None?
  {
    var xs := PresentPrices(rows, fuel);
    PresentPricesMember(rows, fuel);
    if |xs| > 0 {
      var y := xs[0];
      assert y in PresentPrices(rows, fuel);
      assert exists s :: s in rows && PriceOf(s, fuel) == Some(y);
    } else {
      forall s | s in rows
        ensures PriceOf(s, fuel).None?
      {
        PresentPriceListed(rows, fuel, s);
      }
    }
  }

  /** The city mean is absent exactly when no record of the station's municipality has a present price. */
  lemma {:induction false} CityMeanAbsent(t: Table, st: Station, fuel: string)
    requires MunicipalityColumn in t.columns && IsFuel(t, fuel)
    ensures CompareStation(t, st, fuel).value.cityMean.None? <==>
      forall s :: s in t.rows && Municipality(st).Some? && Municipality(s) == Municipality(st) ==> PriceOf(s, fuel).None?
  {
    MeanAbsent(SameMunicipality(t.rows, Municipality(st)), fuel);
  }

  /** The national mean lies within any bounds all present prices respect, and is absent only without prices. */
  lemma {:induction false} NationalMeanBounds(t: Table, st: Station, fuel: string, lo: real, hi: real)
    requires MunicipalityColumn in t.columns && IsFuel(t, fuel)
    requires forall s :: s in t.rows && PriceOf(s, fuel).Some? ==> lo <= PriceOf(s, fuel).value <= hi
    ensures CompareStation(t, st, fuel).value.nationalMean.None? <==> forall s :: s in t.rows ==> PriceOf(s, fuel).None?
    ensures CompareStation(t, st, fuel).value.nationalMean.Some? ==> lo <= CompareStation(t, st, fuel).value.nationalMean.value <= hi
  {
    var xs := PresentPrices(t.rows, fuel);
    PresentPricesMember(t.rows, fuel);
    MeanAbsent(t.rows, fuel);
    if |xs| > 0 {
      assert forall i :: 0 <= i < |xs| ==> lo <= xs[i] <= hi by {
        forall i | 0 <= i < |xs|
          ensures lo <= xs[i] <= hi
        {
          assert xs[i] in xs;
        }
      }
      MeanBounds(xs, lo, hi);
    }
  }

  /**
   * Zero prices count towards the national mean, unlike in the search: when
   * every present price is zero, the mean is zero rather than absent.
   */
  lemma {:induction false} NationalMeanCountsZeros(t: Table, st: Station, fuel: string)
    requires MunicipalityColumn in t.columns && IsFuel(t, fuel)
    requires st in t.rows && PriceOf(st, fuel) == Some(0.0)
    requires forall s :: s in t.rows && PriceOf(s, fuel).Some? ==> PriceOf(s, fuel) == Some(0.0)
    ensures CompareStation(t, st, fuel).value.nationalMean == Some(0.0)
  {
    UniformMean(t.rows, fuel, 0.0, st);
  }

  /** A station the search returns can be compared, and its own price is present and positive. */
  lemma {:induction false} SearchResultHasPrice(t: Table, city: string, fuel: string, a: nat)
    requires MunicipalityColumn in t.columns && IsFuel(t, fuel) && a < |SearchStations(t, city, fuel).value|
    ensures CompareStation(t, SearchStations(t, city, fuel).value[a], fuel).Ok?
    ensures var sel := CompareStation(t, SearchStations(t, city, fuel).value[a], fuel).value.selected;
      sel.Some? && sel.value > 0.0
  {
  }

  /** The nearest station can be compared, and its own price is present and positive. */
  lemma {:induction false} NearestHasPrice(t: Table, origin: Coord, fuel: string, dist: (Coord, Coord) -> real)
    requires MunicipalityColumn in t.columns && IsFuel(t, fuel)
    requires exists i :: 0 <= i < |t.rows| && Sells(t.rows[i], fuel)
    ensures CompareStation(t, NearestStation(t, origin, fuel, dist).value, fuel).Ok?
    ensures var sel := CompareStation(t, NearestStation(t, origin, fuel, dist).value, fuel).value.selected;
      sel.Some? && sel.value > 0.0
  {
  }
}

=== FILE: decimal.dfy ===
/**
 * The numeric parse the loader applies to price and coordinate fields
 * (`pandas.to_numeric` with `errors="coerce"`), restricted to plain decimal
 * notation: an optional sign, then digits with at most one period and at
 * least one digit. Anything else is `None`, which is pandas' NaN.
 */
module Decimal {
  import opened Wrappers

  predicate IsDigit(c: char) {
    '0' <= c <= '9'
  }

  predicate AllDigits(s: string) {
    forall i :: 0 <= i < |s| ==> IsDigit(s[i])
  }

  function DigitValue(c: char): (d: nat)
    requires IsDigit(c)
    ensures d < 10
  {
    c as int - '0' as int
  }

  function DigitChar(d: nat): (c: char)
    requires d < 10
    ensures IsDigit(c) && DigitValue(c) == d
  {
    ('0' as int + d) as char
  }

  function Pow10(n: nat): (r: nat)
    ensures r >= 1
  {
    if n == 0 then 1 else 10 * Pow10(n - 1)
  }

  /** The number a digit string denotes in base ten; it has at most `|s|` digits. */
  function DigitsValue(s: string): (n: nat)
    requires AllDigits(s)
    ensures n < Pow10(|s|)
    decreases |s|
  {
    if |s| == 0 then 0 else DigitsValue(s[..|s| - 1]) * 10 + DigitValue(s[|s| - 1])
  }

  /** `x / 10^n`, one division by ten at a time. */
  function Shift(x: real, n: nat): (r: real)
    ensures x >= 0.0 ==> r >= 0.0
  {
    if n == 0 then x else Shift(x, n - 1) / 10.0
  }

  /** The value of the digits after the decimal point. */
  function FracValue(s: string): real
    requires AllDigits(s)
  {
    Shift(DigitsValue(s) as real, |s|)
  }

  /** The position of the first `c` in `s`, if any. */
  function FirstIndexOf(s: string, c: char): (r: Option<nat>)
    ensures r.None? <==> c !in s
    ensures r.Some? ==> r.value < |s| && s[r.value] == c && c !in s[..r.value]
    decreases |s|
  {
    if |s| == 0 then None
    else if s[0] == c then Some(0)
    else match FirstIndexOf(s[1..], c)
      case None => None
      case Some(k) => assert s[..k + 1] == [s[0]] + s[1..][..k]; Some(k + 1)
  }

  /** Digits before and after a period, with at least one digit overall. */
  function ParsePointParts(whole: string, frac: string): (r: Option<real>)
    ensures r.Some? ==> r.value >= 0.0
  {
    if |whole| + |frac| > 0 && AllDigits(whole) && AllDigits(frac)
    then Some(DigitsValue(whole) as real + FracValue(frac))
    else None
  }

  /** Unsigned decimal: digits, or digits '.' digits with at least one digit overall. */
  function ParseUnsigned(s: string): (r: Option<real>)
    ensures r.Some? ==> r.value >= 0.0
  {
    match FirstIndexOf(s, '.')
    case None =>
      if |s| > 0 && AllDigits(s) then Some(DigitsValue(s) as real) else None
    case Some(k) =>
      ParsePointParts(s[..k], s[k + 1..])
  }

  predicate IsSign(c: char) {
    c == '+' || c == '-'
  }

  /** The characters a parseable number is made of. */
  predicate IsNumberChar(c: char) {
    IsDigit(c) || c == '.' || IsSign(c)
  }

  /** The text after an optional leading sign. */
  function Unsigned(s: string): string {
    if |s| > 0 && IsSign(s[0]) then s[1..] else s
  }

  /**
   * Parses an optionally signed decimal. A result is only ever produced from
   * a non-empty string, and it is negative only when the text starts with '-'.
   */
  function ParseDecimal(s: string): (r: Option<real>)
    ensures r.Some? ==> |s| > 0
    ensures r.Some? && r.value < 0.0 ==> s[0] == '-'
  {
    var u := ParseUnsigned(Unsigned(s));
    if u.None? then None
    else if |s| > 0 && s[0] == '-' then Some(-u.value)
    else u
  }

  /** Whatever parses consists of digits, periods and signs only. */
  lemma {:induction false} ParseDecimalChars(s: string)
    requires ParseDecimal(s).Some?
    ensures forall i :: 0 <= i < |s| ==> IsNumberChar(s[i])
  {
    ParseUnsignedChars(Unsigned(s));
    if |s| > 0 && IsSign(s[0]) {
      forall i | 0 < i < |s| ensures IsNumberChar(s[i]) {
        assert s[i] == Unsigned(s)[i - 1];
      }
    } else {
      forall i | 0 <= i < |s| ensures IsNumberChar(s[i]) {
        assert s[i] in Unsigned(s);
      }
    }
  }

  /** Everything the unsigned parse accepts is digits and periods. */
  lemma {:induction false} ParseUnsignedChars(s: string)
    requires ParseUnsigned(s).Some?
    ensures |s| > 0
    ensures forall c :: c in s ==> IsDigit(c) || c == '.'
  {
    match FirstIndexOf(s, '.')
    case None =>
    case Some(k) =>
      forall c | c in s ensures IsDigit(c) || c == '.' {
        var i :| 0 <= i < |s| && s[i] == c;
        if i < k {
          assert c == s[..k][i];
        } else if i > k {
          assert c == s[k + 1..][i - k - 1];
        }
      }
  }

  // ---------------------------------------------------------------------
  // The grammar the parser accepts, stated without searching for the period.

  /** `s` is digits, a period at `k`, and digits, with at least one digit overall. */
  predicate PointAt(s: string, k: int) {
    && 0 <= k < |s| && s[k] == '.' && |s| > 1
    && AllDigits(s[..k]) && AllDigits(s[k + 1..])
  }

  predicate IsUnsignedDecimal(s: string) {
    (|s| > 0 && AllDigits(s)) || exists k :: 0 <= k < |s| && PointAt(s, k)
  }

  /** Optional sign, then an unsigned decimal. */
  predicate IsDecimal(s: string) {
    IsUnsignedDecimal(Unsigned(s))
  }

  /** The parser accepts exactly the decimal grammar. */
  lemma {:induction false} ParseDecimalAcceptsGrammar(s: string)
    ensures ParseDecimal(s).Some? <==> IsDecimal(s)
  {
    var u := Unsigned(s);
    match FirstIndexOf(u, '.')
    case None =>
    case Some(k) =>
      if ParseUnsigned(u).Some? {
        assert PointAt(u, k);
      }
  }

  // ---------------------------------------------------------------------
  // Rendering fixed-point numbers, the partner of the parse.

  /** The shortest base-ten digit string of `n`. */
  function ShowNat(n: nat): (s: string)
    ensures |s| > 0 && AllDigits(s)
  {
    if n < 10 then [DigitChar(n)] else ShowNat(n / 10) + [DigitChar(n % 10)]
  }

  /** `n` written with exactly `p` digits, padded with leading zeros. */
  function PadDigits(n: nat, p: nat): (s: string)
    requires n < Pow10(p)
    ensures |s| == p && AllDigits(s)
  {
    if p == 0 then [] else PadDigits(n / 10, p - 1) + [DigitChar(n % 10)]
  }

  /** Appending a digit multiplies the value by ten and adds the digit. */
  lemma {:induction false} DigitsValueSnoc(s: string, c: char)
    requires AllDigits(s) && IsDigit(c)
    ensures AllDigits(s + [c])
    ensures DigitsValue(s + [c]) == DigitsValue(s) * 10 + DigitValue(c)
  {
    assert (s + [c])[..|s|] == s;
  }

  lemma {:induction false} ShowNatValue(n: nat)
    ensures DigitsValue(ShowNat(n)) == n
  {
    if n >= 10 {
      ShowNatValue(n / 10);
      DigitsValueSnoc(ShowNat(n / 10), DigitChar(n % 10));
    }
  }

  lemma {:induction false} PadDigitsValue(n: nat, p: nat)
    requires n < Pow10(p)
    ensures DigitsValue(PadDigits(n, p)) == n
  {
    if p > 0 {
      PadDigitsValue(n / 10, p - 1);
      DigitsValueSnoc(PadDigits(n / 10, p - 1), DigitChar(n % 10));
    }
  }

  /** A non-negative fixed-point number: the whole part, then `p` fractional digits after `sep`. */
  function ShowUnsigned(whole: nat, frac: nat, p: nat, sep: char): (s: string)
    requires frac < Pow10(p)
    ensures |s| > 0 && IsDigit(s[0])
  {
    ShowNat(whole) + (if p == 0 then "" else [sep] + PadDigits(frac, p))
  }

  /**
   * A fixed-point number written as the dataset writes prices ("1,459") and
   * coordinates ("-3,703889"): an optional minus, the whole part, and, when
   * `p > 0`, the separator `sep` followed by exactly `p` fractional digits.
   */
  function ShowFixed(negative: bool, whole: nat, frac: nat, p: nat, sep: char): (s: string)
    requires frac < Pow10(p)
    ensures |s| > 0
  {
    if negative then "-" + ShowUnsigned(whole, frac, p, sep) else ShowUnsigned(whole, frac, p, sep)
  }

  /** The number `whole + frac / 10^p`. */
  function UnsignedValue(whole: nat, frac: nat, p: nat): real {
    whole as real + Shift(frac as real, p)
  }

  /** The number a fixed-point rendering stands for. */
  function FixedValue(negative: bool, whole: nat, frac: nat, p: nat): real {
    if negative then -UnsignedValue(whole, frac, p) else UnsignedValue(whole, frac, p)
  }

  /** In digits, a period, then anything, the first period is the one after the digits. */
  lemma {:induction false} FirstPointAfterDigits(w: string, d: string)
    requires AllDigits(w)
    ensures FirstIndexOf(w + "." + d, '.') == Some(|w|)
  {
    var s := w + "." + d;
    assert s[|w|] == '.';
    assert s[..|w|] == w;
  }

  /** Once the first period is found, the parse is decided by the digits around it. */
  lemma {:induction false} ParseAtPoint(s: string, k: nat)
    requires FirstIndexOf(s, '.') == Some(k)
    ensures ParseUnsigned(s) == ParsePointParts(s[..k], s[k + 1..])
  {
  }

  lemma {:induction false} PointedSlices(s: string, w: string, d: string)
    requires s == w + "." + d
    ensures s[..|w|] == w && s[|w| + 1..] == d
  {
  }

  /** Digits, a period and digits parse to the whole part plus the fraction. */
  lemma {:induction false} ParsePointed(s: string, w: string, d: string)
    requires |w| > 0 && AllDigits(w) && AllDigits(d)
    requires s == w + "." + d
    ensures ParseUnsigned(s) == Some(DigitsValue(w) as real + FracValue(d))
  {
    FirstPointAfterDigits(w, d);
    ParseAtPoint(s, |w|);
    PointedSlices(s, w, d);
  }

  /** A whole number without fractional digits parses back to itself. */
  lemma {:induction false} ParseShowWhole(whole: nat)
    ensures ParseUnsigned(ShowNat(whole)) == Some(whole as real)
  {
    ShowNatValue(whole);
  }

  /** Padded fractional digits are worth `frac / 10^p`. */
  lemma {:induction false} FracOfPadded(frac: nat, p: nat)
    requires frac < Pow10(p)
    ensures FracValue(PadDigits(frac, p)) == Shift(frac as real, p)
  {
    PadDigitsValue(frac, p);
  }

  /** The digit strings of a rendering are worth the number it stands for. */
  lemma {:induction false} RenderedValue(whole: nat, frac: nat, p: nat)
    requires frac < Pow10(p)
    ensures Some(DigitsValue(ShowNat(whole)) as real + FracValue(PadDigits(frac, p))) == Some(UnsignedValue(whole, frac, p))
  {
    ShowNatValue(whole);
    FracOfPadded(frac, p);
  }

  /** With fractional digits, the rendering is digits, a period and padded digits. */
  lemma {:induction false} ShowUnsignedPointed(whole: nat, frac: nat, p: nat)
    requires frac < Pow10(p) && p > 0
    ensures ShowUnsigned(whole, frac, p, '.') == ShowNat(whole) + "." + PadDigits(frac, p)
  {
  }

  lemma {:induction false} ParseShowPointed(whole: nat, frac: nat, p: nat)
    requires frac < Pow10(p)
    ensures ParseUnsigned(ShowNat(whole) + "." + PadDigits(frac, p)) == Some(UnsignedValue(whole, frac, p))
  {
    ParsePointed(ShowNat(whole) + "." + PadDigits(frac, p), ShowNat(whole), PadDigits(frac, p));
    RenderedValue(whole, frac, p);
  }

  lemma {:induction false} ParseShowUnpointed(whole: nat, frac: nat, p: nat)
    requires frac < Pow10(p) && p == 0
    ensures ParseUnsigned(ShowUnsigned(whole, frac, p, '.')) == Some(UnsignedValue(whole, frac, p))
  {
    assert ShowUnsigned(whole, frac, p, '.') == ShowNat(whole);
    ParseShowWhole(whole);
  }

  /** The unsigned rendering parses back to its value. */
  lemma {:induction false} ParseShowUnsigned(whole: nat, frac: nat, p: nat)
    requires frac < Pow10(p)
    ensures ParseUnsigned(ShowUnsigned(whole, frac, p, '.')) == Some(UnsignedValue(whole, frac, p))
  {
    if p > 0 {
      ShowUnsignedPointed(whole, frac, p);
      ParseShowPointed(whole, frac, p);
    } else {
      ParseShowUnpointed(whole, frac, p);
    }
  }

  /** Without a sign, the signed parse is the unsigned parse. */
  lemma {:induction false} ParseDecimalUnsigned(s: string)
    requires |s| == 0 || !IsSign(s[0])
    ensures ParseDecimal(s) == ParseUnsigned(s)
  {
  }

  /** A leading minus negates the unsigned value. */
  lemma {:induction false} ParseDecimalMinus(s: string, t: string, v: real)
    requires ParseUnsigned(t) == Some(v) && s == "-" + t
    ensures ParseDecimal(s) == Some(-v)
  {
    assert Unsigned(s) == t;
  }

  /** A leading plus leaves the unsigned value as it is. */
  lemma {:induction false} ParseDecimalPlus(s: string, t: string, v: real)
    requires ParseUnsigned(t) == Some(v) && s == "+" + t
    ensures ParseDecimal(s) == Some(v)
  {
    assert Unsigned(s) == t;
  }

  // ---------------------------------------------------------------------
  // The value of every unsigned text the grammar accepts, with or without
  // leading zeros, whole part or fractional part.

  /** A digit string without a period parses to the number it denotes. */
  lemma {:induction false} ParseDigits(s: string)
    requires |s| > 0 && AllDigits(s)
    ensures ParseUnsigned(s) == Some(DigitsValue(s) as real)
  {
    assert forall i :: 0 <= i < |s| ==> s[i] != '.';
  }

  /** Digits around the period at `k` parse to the whole part plus the fraction, either part possibly empty. */
  lemma {:induction false} ParseUnsignedAt(s: string, k: int)
    requires PointAt(s, k)
    ensures ParseUnsigned(s) == Some(DigitsValue(s[..k]) as real + FracValue(s[k + 1..]))
  {
    assert s == s[..k] + "." + s[k + 1..];
    FirstPointAfterDigits(s[..k], s[k + 1..]);
    ParseAtPoint(s, k);
  }

  /** A fraction without a whole part, as ".5", is worth its fractional digits. */
  lemma {:induction false} ParseLeadingPoint(d: string)
    requires |d| > 0 && AllDigits(d)
    ensures ParseUnsigned("." + d) == Some(FracValue(d))
  {
    var s := "." + d;
    assert s[..0] == "" && s[1..] == d;
    assert PointAt(s, 0);
    ParseUnsignedAt(s, 0);
  }

  /** The negative rendering is a minus in front of the unsigned one. */
  lemma {:induction false} ShowNegative(whole: nat, frac: nat, p: nat)
    requires frac < Pow10(p)
    ensures ShowFixed(true, whole, frac, p, '.') == "-" + ShowUnsigned(whole, frac, p, '.')
  {
  }

  lemma {:induction false} ParseShowNegative(whole: nat, frac: nat, p: nat)
    requires frac < Pow10(p)
    ensures ParseDecimal(ShowFixed(true, whole, frac, p, '.')) == Some(FixedValue(true, whole, frac, p))
  {
    ParseShowUnsigned(whole, frac, p);
    ShowNegative(whole, frac, p);
    ParseDecimalMinus(ShowFixed(true, whole, frac, p, '.'), ShowUnsigned(whole, frac, p, '.'), UnsignedValue(whole, frac, p));
    NegValue(whole, frac, p);
  }

  /** Negating the unsigned value is the value of the negative rendering. */
  lemma {:induction false} NegValue(whole: nat, frac: nat, p: nat)
    ensures Some(-UnsignedValue(whole, frac, p)) == Some(FixedValue(true, whole, frac, p))
  {
  }

  lemma {:induction false} ParseShowNonNegative(whole: nat, frac: nat, p: nat)
    requires frac < Pow10(p)
    ensures ParseDecimal(ShowFixed(false, whole, frac, p, '.')) == Some(FixedValue(false, whole, frac, p))
  {
    ParseShowUnsigned(whole, frac, p);
    ParseDecimalUnsigned(ShowUnsigned(whole, frac, p, '.'));
  }

  /** Parsing a rendered fixed-point number with a period separator gives back its value. */
  lemma {:induction false} ParseShowFixed(negative: bool, whole: nat, frac: nat, p: nat)
    requires frac < Pow10(p)
    ensures ParseDecimal(ShowFixed(negative, whole, frac, p, '.')) == Some(FixedValue(negative, whole, frac, p))
  {
    if negative {
      ParseShowNegative(whole, frac, p);
    } else {
      ParseShowNonNegative(whole, frac, p);
    }
  }
}

=== FILE: loader.dfy ===
/**
 * Loading the dataset: every field is stripped; price and coordinate fields
 * have their decimal comma turned into a period and are parsed as numbers; a
 * price that does not parse becomes absent; a record whose latitude or
 * longitude does not parse is dropped.
 */
module Loader {
  import opened Wrappers
  import opened Text
  import opened Decimal
  import opened Seqs
  import opened Stations

  /** A dataset record as delivered: column name to raw text. A column the record lacks is a missing value. */
  type Record = map<string, string>

  /** The records as delivered, with the column names in dataset order. */
  datatype RawTable = RawTable(columns: seq<string>, records: seq<Record>)

  /** A numeric field: stripped, decimal comma replaced by a period, then parsed. */
  function ParseField(raw: string): (r: Option<real>)
    ensures r.Some? <==> IsDecimal(ReplaceComma(Strip(raw)))
  {
    ParseDecimalAcceptsGrammar(ReplaceComma(Strip(raw)));
    ParseDecimal(ReplaceComma(Strip(raw)))
  }

  /** The parsed value of a numeric column of a record; absent when the record lacks it or it does not parse. */
  function NumericField(rec: Record, column: string): Option<real> {
    if column in rec then ParseField(rec[column]) else None
  }

  /** The record survives loading: both of its coordinates parse. */
  predicate Keeps(rec: Record) {
    NumericField(rec, LatitudeColumn).Some? && NumericField(rec, LongitudeColumn).Some?
  }

  /** A column that stays text: neither a price nor a coordinate. */
  predicate IsTextColumn(c: string) {
    !IsPriceColumn(c) && c != LatitudeColumn && c != LongitudeColumn
  }

  /** The stripped text fields of a record. */
  function TextFields(columns: seq<string>, rec: Record): map<string, string> {
    map c | c in columns && c in rec && IsTextColumn(c) :: Strip(rec[c])
  }

  /** The parsed price fields of a record, one per price column. */
  function PriceFields(columns: seq<string>, rec: Record): map<string, Option<real>> {
    map c | c in columns && IsPriceColumn(c) :: NumericField(rec, c)
  }

  /** The station a record becomes, or nothing when one of its coordinates does not parse. */
  function Normalise(columns: seq<string>, rec: Record): (r: Option<Station>)
    ensures r.Some? <==> Keeps(rec)
    ensures r.Some? ==> r.value.location == Coord(NumericField(rec, LatitudeColumn).value, NumericField(rec, LongitudeColumn).value)
    ensures r.Some? ==> forall c :: c in r.value.prices <==> c in columns && IsPriceColumn(c)
    ensures r.Some? ==> forall c :: c in r.value.prices ==> r.value.prices[c] == NumericField(rec, c)
    ensures r.Some? ==> forall c :: c in r.value.text <==> c in columns && c in rec && IsTextColumn(c)
    ensures r.Some? ==> forall c :: c in r.value.text ==> r.value.text[c] == Strip(rec[c])
  {
    var lat := NumericField(rec, LatitudeColumn);
    var lon := NumericField(rec, LongitudeColumn);
    if lat.None? || lon.None? then None
    else
      Some(Station(TextFields(columns, rec), PriceFields(columns, rec), Coord(lat.value, lon.value)))
  }

  /** Normalises every record, then drops those whose coordinates did not parse. */
  function LoadRows(columns: seq<string>, records: seq<Record>): (r: seq<Station>)
    ensures |r| <= |records|
  {
    FilterMap(records, (rec: Record) => Normalise(columns, rec))
  }

  /** The loaded table; the coordinate columns must exist. */
  function Load(raw: RawTable): (r: Result<Table, Error>)
    ensures r.Err? <==> LatitudeColumn !in raw.columns || LongitudeColumn !in raw.columns
    ensures r.Err? ==> r.error == MissingColumn(if LatitudeColumn !in raw.columns then LatitudeColumn else LongitudeColumn)
    ensures r.Ok? ==> r.value.columns == raw.columns && |r.value.rows| <= |raw.records|
  {
    if LatitudeColumn !in raw.columns then Err(MissingColumn(LatitudeColumn))
    else if LongitudeColumn !in raw.columns then Err(MissingColumn(LongitudeColumn))
    else Ok(Table(raw.columns, LoadRows(raw.columns, raw.records)))
  }

  /**
   * The loaded rows are the normalised records whose coordinates parse, in
   * dataset order, and no others: row `a` comes from record `Where(..)[a]`.
   */
  lemma {:induction false} LoadRowsAreKeptRecords(columns: seq<string>, records: seq<Record>)
    ensures |LoadRows(columns, records)| == |Where(records, Keeps)|
    ensures forall a :: 0 <= a < |Where(records, Keeps)| ==>
      Normalise(columns, records[Where(records, Keeps)[a]]) == Some(LoadRows(columns, records)[a])
  {
    FilterMapWhere(records, (rec: Record) => Normalise(columns, rec), Keeps);
  }

  /**
   * Loading keeps exactly the records whose latitude and longitude both
   * parse, in their dataset order, each normalised.
   */
  lemma {:induction false} LoadKeepsParsable(raw: RawTable)
    requires Load(raw).Ok?
    ensures var kept := Where(raw.records, Keeps);
      && |Load(raw).value.rows| == |kept|
      && (forall a, b :: 0 <= a < b < |kept| ==> kept[a] < kept[b])
      && (forall i :: 0 <= i < |raw.records| ==> (i in kept <==> Keeps(raw.records[i])))
      && (forall a :: 0 <= a < |kept| ==> Normalise(raw.columns, raw.records[kept[a]]) == Some(Load(raw).value.rows[a]))
  {
    LoadRowsAreKeptRecords(raw.columns, raw.records);
  }

  /** "Latitud" and "Longitud (WGS84)" do not contain "Precio", so coordinates are never treated as prices. */
  lemma {:induction false} CoordinatesAreNotPrices()
    ensures !IsPriceColumn(LatitudeColumn) && !IsPriceColumn(LongitudeColumn)
  {
    assert PriceMarker[0] == 'P';
    ContainsNeedsHead(LatitudeColumn, PriceMarker);
    ContainsNeedsHead(LongitudeColumn, PriceMarker);
  }

  /** Editing one field of a record leaves the parse of every other field as it was. */
  lemma {:induction false} OtherFieldUnchanged(rec: Record, c: string, v: string, k: string)
    requires k != c
    ensures NumericField(rec[c := v], k) == NumericField(rec, k)
  {
    assert (k in rec[c := v]) == (k in rec);
    assert k in rec ==> rec[c := v][k] == rec[k];
  }

  /** Editing a price field leaves both coordinates, and so the keep decision, as they were. */
  lemma {:induction false} PriceEditKeepsCoordinates(rec: Record, c: string, v: string)
    requires IsPriceColumn(c)
    ensures NumericField(rec[c := v], LatitudeColumn) == NumericField(rec, LatitudeColumn)
    ensures NumericField(rec[c := v], LongitudeColumn) == NumericField(rec, LongitudeColumn)
  {
    CoordinatesAreNotPrices();
    OtherFieldUnchanged(rec, c, v, LatitudeColumn);
    OtherFieldUnchanged(rec, c, v, LongitudeColumn);
  }

  /** Editing a price field leaves the text fields as they were. */
  lemma {:induction false} PriceEditKeepsText(columns: seq<string>, rec: Record, c: string, v: string)
    requires IsPriceColumn(c)
    ensures TextFields(columns, rec[c := v]) == TextFields(columns, rec)
  {
    var edited := rec[c := v];
    assert forall k :: IsTextColumn(k) ==> k != c;
    assert forall k :: IsTextColumn(k) ==> (k in edited <==> k in rec);
    assert forall k :: IsTextColumn(k) && k in rec ==> edited[k] == rec[k];
  }

  /** Editing a field keeps the price entries of every other column. */
  lemma {:induction false} PriceEditKeepsOthers(columns: seq<string>, rec: Record, c: string, v: string)
    ensures forall k :: k in PriceFields(columns, rec[c := v]) <==> k in PriceFields(columns, rec)
    ensures forall k :: k in PriceFields(columns, rec) && k != c ==>
      PriceFields(columns, rec[c := v])[k] == PriceFields(columns, rec)[k]
  {
    forall k | k in PriceFields(columns, rec) && k != c
      ensures PriceFields(columns, rec[c := v])[k] == PriceFields(columns, rec)[k]
    {
      OtherFieldUnchanged(rec, c, v, k);
    }
  }

  /** Editing a price field changes that price alone, to the parse of the new text. */
  lemma {:induction false} PriceEditChangesOnePrice(columns: seq<string>, rec: Record, c: string, v: string)
    requires IsPriceColumn(c)
    ensures c in columns ==> PriceFields(columns, rec[c := v]) == PriceFields(columns, rec)[c := ParseField(v)]
    ensures c !in columns ==> PriceFields(columns, rec[c := v]) == PriceFields(columns, rec)
  {
    var before := PriceFields(columns, rec);
    var after := PriceFields(columns, rec[c := v]);
    PriceEditKeepsOthers(columns, rec, c, v);
    if c in columns {
      assert c in before && after[c] == ParseField(v);
      MapUpdated(after, before, c, ParseField(v));
    } else {
      MapUpdated(after, before, c, None);
    }
  }

  /** A map agreeing with `b` on every key but `c`, where it holds `x`, is `b` with `c` set to `x`. */
  lemma {:induction false} MapUpdated<K, V>(a: map<K, V>, b: map<K, V>, c: K, x: V)
    requires forall k :: k in a <==> k in b
    requires forall k :: k in b && k != c ==> a[k] == b[k]
    ensures c in b && a[c] == x ==> a == b[c := x]
    ensures c !in b ==> a == b
  {
  }

  /**
   * A price field never decides whether its record is kept: whatever text a
   * price column holds, the record is kept exactly when it was before, and
   * only that price changes, to the parse of the new text (absent when it
   * does not parse).
   */
  lemma {:induction false} PriceNeverDropsRecord(columns: seq<string>, rec: Record, c: string, v: string)
    requires IsPriceColumn(c)
    ensures Keeps(rec[c := v]) <==> Keeps(rec)
    ensures Keeps(rec) ==>
      var before := Normalise(columns, rec).value;
      var after := Normalise(columns, rec[c := v]).value;
      && after.location == before.location
      && after.text == before.text
      && (c in columns ==> after.prices == before.prices[c := ParseField(v)])
      && (c !in columns ==> after.prices == before.prices)
  {
    PriceEditKeepsCoordinates(rec, c, v);
    PriceEditKeepsText(columns, rec, c, v);
    PriceEditChangesOnePrice(columns, rec, c, v);
  }

  /** A price column whose field is missing or does not parse is absent in the station, which is still kept. */
  lemma {:induction false} UnparsedPriceIsAbsent(columns: seq<string>, rec: Record, c: string)
    requires Keeps(rec) && c in columns && IsPriceColumn(c)
    requires c !in rec || ParseField(rec[c]).None?
    ensures Normalise(columns, rec).Some?
    ensures c in Normalise(columns, rec).value.prices && PriceOf(Normalise(columns, rec).value, c) == None
  {
  }

  /**
   * The text fields of a station are the record's text columns that have a
   * value, each the raw field with the whitespace around it cut off.
   */
  lemma {:induction false} TextFieldsStripped(columns: seq<string>, rec: Record)
    requires Keeps(rec)
    ensures var text := Normalise(columns, rec).value.text;
      forall c :: c in text <==> c in columns && c in rec && IsTextColumn(c)
    ensures var text := Normalise(columns, rec).value.text;
      forall c :: c in text ==>
        && (exists i :: SliceBetweenSpaces(rec[c], text[c], i))
        && IsTrimmed(text[c])
        && Strip(text[c]) == text[c]
  {
    var t := Normalise(columns, rec).value.text;
    forall c | c in t
      ensures (exists i :: SliceBetweenSpaces(rec[c], t[c], i)) && IsTrimmed(t[c]) && Strip(t[c]) == t[c]
    {
      StripIdempotent(rec[c]);
    }
  }

  /** Every loaded station has one price entry per fuel label, and no other. */
  lemma {:induction false} PricesFollowFuelLabels(raw: RawTable)
    requires Load(raw).Ok?
    ensures forall s :: s in Load(raw).value.rows ==> forall c :: c in s.prices <==> c in FuelLabels(raw.columns)
  {
    var rows := Load(raw).value.rows;
    LoadKeepsParsable(raw);
    forall s | s in rows
      ensures forall c :: c in s.prices <==> c in FuelLabels(raw.columns)
    {
      var a :| 0 <= a < |rows| && rows[a] == s;
    }
  }

  /** The sign a fixed-point rendering starts with. */
  function SignText(negative: bool): string {
    if negative then "-" else ""
  }

  /** A rendering is the sign, the whole digits and, with fractional digits, the separator and those digits. */
  lemma {:induction false} ShowFixedLayout(negative: bool, whole: nat, frac: nat, p: nat, sep: char)
    requires frac < Pow10(p) && p > 0
    ensures ShowFixed(negative, whole, frac, p, sep) == SignText(negative) + ShowNat(whole) + [sep] + PadDigits(frac, p)
  {
  }

  /** Without a separator the rendering does not depend on it. */
  lemma {:induction false} ShowFixedNoSeparator(negative: bool, whole: nat, frac: nat, p: nat)
    requires frac < Pow10(p) && p == 0
    ensures ShowFixed(negative, whole, frac, p, ',') == ShowFixed(negative, whole, frac, p, '.')
    ensures ',' !in ShowFixed(negative, whole, frac, p, ',')
  {
    assert ShowFixed(negative, whole, frac, p, ',') == SignText(negative) + ShowNat(whole);
  }

  /** Digits contain no comma. */
  lemma {:induction false} DigitsHaveNoComma(s: string)
    requires AllDigits(s)
    ensures ',' !in s
  {
  }

  /** Replacing the comma between two comma-free parts turns it into the period. */
  lemma {:induction false} SwapSeparator(front: string, back: string)
    requires ',' !in front && ',' !in back
    ensures ReplaceComma(front + "," + back) == front + "." + back
  {
    var s := front + "," + back;
    var t := front + "." + back;
    assert forall k :: 0 <= k < |s| && k != |front| ==> s[k] == t[k] && s[k] != ',';
  }

  /** The comma rendering becomes the period rendering once its comma is replaced. */
  lemma {:induction false} CommaRenderingReplaced(negative: bool, whole: nat, frac: nat, p: nat)
    requires frac < Pow10(p)
    ensures ReplaceComma(ShowFixed(negative, whole, frac, p, ',')) == ShowFixed(negative, whole, frac, p, '.')
  {
    if p == 0 {
      ShowFixedNoSeparator(negative, whole, frac, p);
      ReplaceCommaFixes(ShowFixed(negative, whole, frac, p, ','));
    } else {
      ShowFixedLayout(negative, whole, frac, p, ',');
      ShowFixedLayout(negative, whole, frac, p, '.');
      DigitsHaveNoComma(ShowNat(whole));
      DigitsHaveNoComma(PadDigits(frac, p));
      assert ',' !in SignText(negative) + ShowNat(whole);
      SwapSeparator(SignText(negative) + ShowNat(whole), PadDigits(frac, p));
    }
  }

  /** A rendering neither starts nor ends with whitespace. */
  lemma {:induction false} RenderingTrimmed(negative: bool, whole: nat, frac: nat, p: nat, sep: char)
    requires frac < Pow10(p)
    ensures IsTrimmed(ShowFixed(negative, whole, frac, p, sep))
  {
    var s := ShowFixed(negative, whole, frac, p, sep);
    if p == 0 {
      assert s == SignText(negative) + ShowNat(whole);
      assert IsDigit(s[|s| - 1]);
    } else {
      ShowFixedLayout(negative, whole, frac, p, sep);
      assert IsDigit(s[|s| - 1]);
    }
  }

  /**
   * A price or coordinate written the dataset's way, with a decimal comma and
   * any whitespace around it, loads as the number it denotes.
   */
  lemma {:induction false} ParseFieldRoundTrip(lead: string, negative: bool, whole: nat, frac: nat, p: nat, trail: string)
    requires AllSpace(lead) && AllSpace(trail) && frac < Pow10(p)
    ensures ParseField(lead + ShowFixed(negative, whole, frac, p, ',') + trail) == Some(FixedValue(negative, whole, frac, p))
  {
    RenderingTrimmed(negative, whole, frac, p, ',');
    StripPadded(lead, ShowFixed(negative, whole, frac, p, ','), trail);
    CommaRenderingReplaced(negative, whole, frac, p);
    ParseShowFixed(negative, whole, frac, p);
  }

  /** A number written the dataset's way: padding, then a fixed-point rendering with a decimal comma, then padding. */
  datatype Written = Written(lead: string, negative: bool, whole: nat, frac: nat, p: nat, trail: string)

  predicate WellWritten(w: Written) {
    AllSpace(w.lead) && AllSpace(w.trail) && w.frac < Pow10(w.p)
  }

  function WrittenText(w: Written): string
    requires WellWritten(w)
  {
    w.lead + ShowFixed(w.negative, w.whole, w.frac, w.p, ',') + w.trail
  }

  function WrittenValue(w: Written): real {
    FixedValue(w.negative, w.whole, w.frac, w.p)
  }

  lemma {:induction false} WrittenParses(w: Written)
    requires WellWritten(w)
    ensures ParseField(WrittenText(w)) == Some(WrittenValue(w))
  {
    ParseFieldRoundTrip(w.lead, w.negative, w.whole, w.frac, w.p, w.trail);
  }

  /**
   * A record whose latitude and longitude are written the dataset's way is
   * kept, and its station sits at the two numbers written.
   */
  lemma {:induction false} CoordinatesRoundTrip(columns: seq<string>, rec: Record, lat: Written, lon: Written)
    requires WellWritten(lat) && WellWritten(lon)
    requires LatitudeColumn in rec && rec[LatitudeColumn] == WrittenText(lat)
    requires LongitudeColumn in rec && rec[LongitudeColumn] == WrittenText(lon)
    ensures Normalise(columns, rec).Some?
    ensures Normalise(columns, rec).value.location == Coord(WrittenValue(lat), WrittenValue(lon))
  {
    WrittenParses(lat);
    WrittenParses(lon);
    assert NumericField(rec, LatitudeColumn) == Some(WrittenValue(lat));
    assert NumericField(rec, LongitudeColumn) == Some(WrittenValue(lon));
  }
}

=== FILE: nearest.dfy ===
/**
 * The nearest station selling a fuel: among the stations with a positive
 * price, the one closest to the user, the first in dataset order on a tie.
 * The distance is a parameter standing for the geodesic distance; nothing is
 * assumed about it.
 */
module Nearest {
  import opened Wrappers
  import opened Seqs
  import opened Ranking
  import opened Stations

  /** The distance from `origin` to every row. */
  function Distances(rows: seq<Station>, origin: Coord, dist: (Coord, Coord) -> real): (d: seq<real>)
    ensures |d| == |rows|
    ensures forall i :: 0 <= i < |rows| ==> d[i] == dist(origin, rows[i].location)
  {
    seq(|rows|, i requires 0 <= i < |rows| => dist(origin, rows[i].location))
  }

  /** The positions of the stations with a positive price for `fuel`, in dataset order. */
  function Sellers(rows: seq<Station>, fuel: string): (r: seq<nat>)
    ensures forall a :: 0 <= a < |r| ==> r[a] < |rows| && Sells(rows[r[a]], fuel)
    ensures forall i :: 0 <= i < |rows| && Sells(rows[i], fuel) ==> i in r
    ensures forall a, b :: 0 <= a < b < |r| ==> r[a] < r[b]
  {
    Where(rows, (s: Station) => Sells(s, fuel))
  }

  /**
   * The position of the nearest station selling `fuel`. The fuel must be a
   * price column, and some station must sell it.
   */
  function NearestPosition(t: Table, origin: Coord, fuel: string, dist: (Coord, Coord) -> real): (r: Result<nat, Error>)
    ensures r.Err? <==> !IsFuel(t, fuel) || forall i :: 0 <= i < |t.rows| ==> !Sells(t.rows[i], fuel)
    ensures r.Err? ==> r.error == if !IsFuel(t, fuel) then UnknownFuel(fuel) else NoCandidate
    ensures r.Ok? ==> r.value < |t.rows| && Sells(t.rows[r.value], fuel)
    ensures r.Ok? ==> forall i :: 0 <= i < |t.rows| && Sells(t.rows[i], fuel) ==>
                        dist(origin, t.rows[r.value].location) <= dist(origin, t.rows[i].location)
    ensures r.Ok? ==> forall i :: 0 <= i < r.value && Sells(t.rows[i], fuel) ==>
                        dist(origin, t.rows[r.value].location) < dist(origin, t.rows[i].location)
  {
    if !IsFuel(t, fuel) then Err(UnknownFuel(fuel))
    else
      var d := Distances(t.rows, origin, dist);
      var c := Sellers(t.rows, fuel);
      match Least(d, c)
      case None => Err(NoCandidate)
      case Some(m) =>
        assert forall i :: 0 <= i < |t.rows| && Sells(t.rows[i], fuel) && i != m ==> Before(d, m, i);
        Ok(m)
  }

  /**
   * The nearest station itself: it sells the fuel, no seller is nearer, and
   * it sits at a position before which every seller is farther away.
   */
  function NearestStation(t: Table, origin: Coord, fuel: string, dist: (Coord, Coord) -> real): (r: Result<Station, Error>)
    ensures r.Err? <==> !IsFuel(t, fuel) || forall i :: 0 <= i < |t.rows| ==> !Sells(t.rows[i], fuel)
    ensures r.Err? ==> r.error == if !IsFuel(t, fuel) then UnknownFuel(fuel) else NoCandidate
    ensures r.Ok? ==> r.value in t.rows && Sells(r.value, fuel)
    ensures r.Ok? ==> forall s :: s in t.rows && Sells(s, fuel) ==> dist(origin, r.value.location) <= dist(origin, s.location)
    ensures r.Ok? ==> exists p :: 0 <= p < |t.rows| && t.rows[p] == r.value &&
                        forall i :: 0 <= i < p && Sells(t.rows[i], fuel) ==> dist(origin, r.value.location) < dist(origin, t.rows[i].location)
  {
    match NearestPosition(t, origin, fuel, dist)
    case Err(e) => Err(e)
    case Ok(p) =>
      assert forall s :: s in t.rows ==> exists i :: 0 <= i < |t.rows| && t.rows[i] == s;
      Ok(t.rows[p])
  }

  /** The nearest station is the first of the sellers ranked by distance, dataset order breaking ties. */
  lemma {:induction false} NearestIsFirstByDistance(t: Table, origin: Coord, fuel: string, dist: (Coord, Coord) -> real)
    requires NearestPosition(t, origin, fuel, dist).Ok?
    ensures NearestPosition(t, origin, fuel, dist).value == Rank(Distances(t.rows, origin, dist), Sellers(t.rows, fuel))[0]
  {
    LeastIsFirstRanked(Distances(t.rows, origin, dist), Sellers(t.rows, fuel));
  }
}

=== FILE: ranking.dfy ===
/**
 * Ranking of dataset positions by a real-valued key, with ties broken by
 * position. This is the order pandas produces for `nsmallest(n, col)` with
 * `keep='first'` (a stable sort by the column) and the choice `idxmin` makes
 * (the first row holding the minimum).
 */
module Ranking {
  import opened Wrappers

  /** Every entry of `s` is a position of `keys`. */
  predicate InRange(keys: seq<real>, s: seq<nat>) {
    forall a :: 0 <= a < |s| ==> s[a] < |keys|
  }

  /** No position occurs twice in `s`. */
  predicate Distinct(s: seq<nat>) {
    forall a, b :: 0 <= a < b < |s| ==> s[a] != s[b]
  }

  /**
   * Position `i` ranks before position `j`: its key is smaller, or the keys
   * are equal and `i` comes first in the dataset.
   */
  predicate Before(keys: seq<real>, i: nat, j: nat)
    requires i < |keys| && j < |keys|
  {
    keys[i] < keys[j] || (keys[i] == keys[j] && i < j)
  }

  /** `s` lists positions in strictly ascending rank. */
  predicate Ranked(keys: seq<real>, s: seq<nat>)
    requires InRange(keys, s)
  {
    forall a, b :: 0 <= a < b < |s| ==> Before(keys, s[a], s[b])
  }

  /** Two different positions are always ordered one way or the other. */
  lemma {:induction false} BeforeTotal(keys: seq<real>, i: nat, j: nat)
    requires i < |keys| && j < |keys| && i != j
    ensures Before(keys, i, j) || Before(keys, j, i)
  {
  }

  /** Ranking is transitive. */
  lemma {:induction false} BeforeTransitive(keys: seq<real>, i: nat, j: nat, k: nat)
    requires i < |keys| && j < |keys| && k < |keys|
    requires Before(keys, i, j) && Before(keys, j, k)
    ensures Before(keys, i, k)
  {
  }

  /** A ranked sequence never repeats a position. */
  lemma {:induction false} RankedDistinct(keys: seq<real>, s: seq<nat>)
    requires InRange(keys, s) && Ranked(keys, s)
    ensures Distinct(s)
  {
    forall a, b | 0 <= a < b < |s|
      ensures s[a] != s[b]
    {
      assert Before(keys, s[a], s[b]);
    }
  }

  /** Puts position `i` into the ranked sequence `s` at its place. */
  function Insert(keys: seq<real>, s: seq<nat>, i: nat): (r: seq<nat>)
    requires InRange(keys, s) && Ranked(keys, s) && i < |keys| && i !in s
    ensures |r| == |s| + 1
    ensures forall x :: x in r <==> x == i || x in s
    ensures InRange(keys, r) && Ranked(keys, r)
    decreases |s|
  {
    if |s| == 0 then [i]
    else if Before(keys, i, s[0]) then
      assert forall b :: 0 < b < |s| ==> Before(keys, s[0], s[b]);
      [i] + s
    else
      BeforeTotal(keys, i, s[0]);
      var rest := Insert(keys, s[1..], i);
      assert forall x :: x in s[1..] ==> Before(keys, s[0], x);
      assert forall b :: 0 <= b < |rest| ==> Before(keys, s[0], rest[b]);
      [s[0]] + rest
  }

  /** The positions `c`, in rank order. */
  function Rank(keys: seq<real>, c: seq<nat>): (r: seq<nat>)
    requires InRange(keys, c) && Distinct(c)
    ensures |r| == |c|
    ensures forall x :: x in r <==> x in c
    ensures InRange(keys, r) && Ranked(keys, r)
    decreases |c|
  {
    if |c| == 0 then []
    else
      var front := c[..|c| - 1];
      assert forall x :: x in front ==> x != c[|c| - 1];
      Insert(keys, Rank(keys, front), c[|c| - 1])
  }

  /**
   * The `k` best-ranked positions of `c`: the smallest keys, the earlier
   * position first among equal keys.
   */
  function Smallest(keys: seq<real>, c: seq<nat>, k: nat): (r: seq<nat>)
    requires InRange(keys, c) && Distinct(c)
    ensures |r| == if k < |c| then k else |c|
    ensures forall x :: x in r ==> x in c
    ensures InRange(keys, r) && Ranked(keys, r)
    ensures forall q, a :: q in c && q !in r && 0 <= a < |r| ==> Before(keys, r[a], q)
    ensures k >= |c| ==> forall x :: x in c ==> x in r
  {
    var all := Rank(keys, c);
    var r := all[..if k < |c| then k else |c|];
    SmallestBeatsRest(keys, c, all, |r|);
    assert k >= |c| ==> r == all;
    r
  }

  /** In a ranked listing of `c`, every position past the cut ranks after every one before it. */
  lemma {:induction false} SmallestBeatsRest(keys: seq<real>, c: seq<nat>, all: seq<nat>, m: nat)
    requires InRange(keys, all) && Ranked(keys, all) && m <= |all|
    requires forall x :: x in all <==> x in c
    ensures forall q, a :: q in c && q !in all[..m] && 0 <= a < m ==> Before(keys, all[a], q)
  {
    forall q, a | q in c && q !in all[..m] && 0 <= a < m
      ensures Before(keys, all[a], q)
    {
      var j :| 0 <= j < |all| && all[j] == q;
      assert j >= m;
    }
  }

  /**
   * The best-ranked position of `c`, computed in one pass like `idxmin`:
   * a position that does not rank before the current choice never replaces it.
   */
  function Least(keys: seq<real>, c: seq<nat>): (r: Option<nat>)
    requires InRange(keys, c) && Distinct(c)
    ensures r.None? <==> |c| == 0
    ensures r.Some? ==> r.value in c && r.value < |keys|
    ensures r.Some? ==> forall x :: x in c && x != r.value ==> Before(keys, r.value, x)
    decreases |c|
  {
    if |c| == 0 then None
    else
      var last := c[|c| - 1];
      var front := c[..|c| - 1];
      assert forall x :: x in c ==> x in front || x == last;
      assert last !in front;
      match Least(keys, front)
      case None => Some(last)
      case Some(m) =>
        if Before(keys, last, m) then
          assert forall x :: x in front && x != m ==> Before(keys, last, x) by {
            forall x | x in front && x != m
              ensures Before(keys, last, x)
            {
              BeforeTransitive(keys, last, m, x);
            }
          }
          Some(last)
        else
          BeforeTotal(keys, last, m);
          Some(m)
  }

  /** At most one position of `c` ranks before all the others. */
  lemma {:induction false} FirstUnique(keys: seq<real>, c: seq<nat>, x: nat, y: nat)
    requires x < |keys| && y < |keys| && x in c && y in c
    requires forall z :: z in c && z != x ==> z < |keys| && Before(keys, x, z)
    requires forall z :: z in c && z != y ==> z < |keys| && Before(keys, y, z)
    ensures x == y
  {
  }

  /** The head of a ranked listing ranks before every other position of it. */
  lemma {:induction false} HeadFirst(keys: seq<real>, all: seq<nat>)
    requires InRange(keys, all) && Ranked(keys, all) && |all| > 0
    ensures forall z :: z in all && z != all[0] ==> z < |keys| && Before(keys, all[0], z)
  {
    forall z | z in all && z != all[0]
      ensures z < |keys| && Before(keys, all[0], z)
    {
      var b :| 0 <= b < |all| && all[b] == z;
      assert b > 0;
    }
  }

  /** The one-pass minimum is the head of the ranking. */
  lemma {:induction false} LeastIsFirstRanked(keys: seq<real>, c: seq<nat>)
    requires InRange(keys, c) && Distinct(c) && |c| > 0
    ensures Least(keys, c) == Some(Rank(keys, c)[0])
  {
    var all := Rank(keys, c);
    HeadFirst(keys, all);
    FirstUnique(keys, c, Least(keys, c).value, all[0]);
  }

  /** Two ranked listings of the same positions are the same listing. */
  lemma {:induction false} RankedUnique(keys: seq<real>, r: seq<nat>, s: seq<nat>)
    requires InRange(keys, r) && Ranked(keys, r) && InRange(keys, s) && Ranked(keys, s)
    requires |r| == |s| && forall x :: x in r <==> x in s
    ensures r == s
    decreases |r|
  {
    if |r| > 0 {
      HeadFirst(keys, r);
      HeadFirst(keys, s);
      assert r[0] in s && s[0] in r;
      FirstUnique(keys, r, r[0], s[0]);
      RankedDistinct(keys, r);
      RankedDistinct(keys, s);
      assert forall x :: x in r[1..] <==> x in r && x != r[0];
      assert forall x :: x in s[1..] <==> x in s && x != s[0];
      RankedUnique(keys, r[1..], s[1..]);
      assert r == [r[0]] + r[1..] && s == [s[0]] + s[1..];
    }
  }

  /** `c` without position `m`, order kept. */
  function Without(keys: seq<real>, c: seq<nat>, m: nat): (r: seq<nat>)
    requires InRange(keys, c) && Distinct(c)
    ensures forall x :: x in r <==> x in c && x != m
    ensures |r| == if m in c then |c| - 1 else |c|
    ensures InRange(keys, r) && Distinct(r)
    decreases |c|
  {
    if |c| == 0 then []
    else
      var front := c[..|c| - 1];
      var last := c[|c| - 1];
      assert forall x :: x in c <==> x in front || x == last;
      assert last !in front;
      Without(keys, front, m) + if last == m then [] else [last]
  }

  /**
   * The `k` best-ranked positions found the way one would by hand: take the
   * first minimum, remove it, repeat.
   */
  function RepeatedLeast(keys: seq<real>, c: seq<nat>, k: nat): (r: seq<nat>)
    requires InRange(keys, c) && Distinct(c)
    decreases k
  {
    if k == 0 || |c| == 0 then []
    else
      var m := Least(keys, c).value;
      [m] + RepeatedLeast(keys, Without(keys, c, m), k - 1)
  }

  /** Ranking the rest after the first-ranked position gives the tail of the ranking. */
  lemma {:induction false} RankTail(keys: seq<real>, c: seq<nat>)
    requires InRange(keys, c) && Distinct(c) && |c| > 0
    ensures Rank(keys, c)[1..] == Rank(keys, Without(keys, c, Rank(keys, c)[0]))
  {
    var all := Rank(keys, c);
    var rest := Without(keys, c, all[0]);
    RankedDistinct(keys, all);
    assert forall x :: x in all[1..] <==> x in all && x != all[0];
    RankedUnique(keys, all[1..], Rank(keys, rest));
  }

  /** The selection is the ranking cut after `k` positions. */
  lemma {:induction false} SmallestIsPrefix(keys: seq<real>, c: seq<nat>, k: nat)
    requires InRange(keys, c) && Distinct(c)
    ensures Smallest(keys, c, k) == Rank(keys, c)[..if k < |c| then k else |c|]
  {
  }

  lemma {:induction false} PrefixCons(s: seq<nat>, n: nat)
    requires 1 <= n <= |s|
    ensures s[..n] == [s[0]] + s[1..][..n - 1]
  {
  }

  /** The cut ranking is its first position followed by the cut ranking of the rest. */
  lemma {:induction false} SmallestStep(keys: seq<real>, c: seq<nat>, j: nat)
    requires InRange(keys, c) && Distinct(c) && |c| > 0
    ensures Smallest(keys, c, j + 1) == [Rank(keys, c)[0]] + Smallest(keys, Without(keys, c, Rank(keys, c)[0]), j)
  {
    var all := Rank(keys, c);
    var rest := Without(keys, c, all[0]);
    RankTail(keys, c);
    assert |rest| == |c| - 1;
    var n := if j + 1 < |c| then j + 1 else |c|;
    SmallestIsPrefix(keys, c, j + 1);
    SmallestIsPrefix(keys, rest, j);
    PrefixCons(all, n);
  }

  /** Repeated extraction starts with the first-ranked position. */
  lemma {:induction false} RepeatedLeastStep(keys: seq<real>, c: seq<nat>, j: nat)
    requires InRange(keys, c) && Distinct(c) && |c| > 0
    ensures RepeatedLeast(keys, c, j + 1) == [Rank(keys, c)[0]] + RepeatedLeast(keys, Without(keys, c, Rank(keys, c)[0]), j)
  {
    LeastIsFirstRanked(keys, c);
  }

  lemma {:induction false} SameCons(x: seq<nat>, y: seq<nat>, m: nat, xt: seq<nat>, yt: seq<nat>)
    requires x == [m] + xt && y == [m] + yt && xt == yt
    ensures x == y
  {
  }

  /** The stable-sort-and-cut selection equals repeated first-minimum extraction. */
  lemma {:induction false} SmallestIsRepeatedLeast(keys: seq<real>, c: seq<nat>, k: nat)
    requires InRange(keys, c) && Distinct(c)
    ensures Smallest(keys, c, k) == RepeatedLeast(keys, c, k)
    decreases k
  {
    if k > 0 && |c| > 0 {
      var j := k - 1;
      var m := Rank(keys, c)[0];
      var rest := Without(keys, c, m);
      SmallestStep(keys, c, j);
      RepeatedLeastStep(keys, c, j);
      SmallestIsRepeatedLeast(keys, rest, j);
      SameCons(Smallest(keys, c, j + 1), RepeatedLeast(keys, c, j + 1), m, Smallest(keys, rest, j), RepeatedLeast(keys, rest, j));
    } else {
      assert |Smallest(keys, c, k)| == 0;
    }
  }
}

=== FILE: search.dfy ===
/**
 * The city and fuel search: the stations of a city (matched without regard
 * to case) that sell a fuel at a positive price, the ten cheapest first, ties
 * in dataset order.
 */
module Search {
  import opened Wrappers
  import opened Text
  import opened Seqs
  import opened Ranking
  import opened Stations

  /** How many stations the search returns at most. */
  const MaxResults := 10

  /** The station's municipality equals `city` once both are lowercased; a station without one never matches. */
  predicate InCity(s: Station, city: string) {
    Municipality(s).Some? && Lower(Municipality(s).value) == Lower(city)
  }

  /** The station is one the search may return. */
  predicate Qualifies(s: Station, city: string, fuel: string) {
    InCity(s, city) && Sells(s, fuel)
  }

  /** The sort key of every row: its price for `fuel`, or zero when absent (such rows never qualify). */
  function PriceKeys(rows: seq<Station>, fuel: string): (keys: seq<real>)
    ensures |keys| == |rows|
    ensures forall i :: 0 <= i < |rows| && PriceOf(rows[i], fuel).Some? ==> keys[i] == PriceOf(rows[i], fuel).value
  {
    seq(|rows|, i requires 0 <= i < |rows| => PriceOf(rows[i], fuel).GetOr(0.0))
  }

  /** The positions of the qualifying stations, in dataset order. */
  function Candidates(rows: seq<Station>, city: string, fuel: string): (r: seq<nat>)
    ensures forall a :: 0 <= a < |r| ==> r[a] < |rows| && Qualifies(rows[r[a]], city, fuel)
    ensures forall i :: 0 <= i < |rows| && Qualifies(rows[i], city, fuel) ==> i in r
    ensures forall a, b :: 0 <= a < b < |r| ==> r[a] < r[b]
  {
    Where(rows, (s: Station) => Qualifies(s, city, fuel))
  }

  /** The smaller of `n` and the search limit. */
  function Capped(n: nat): nat {
    if n < MaxResults then n else MaxResults
  }

  /**
   * The positions of the stations the search returns. The municipality
   * column must exist and the fuel must be a price column.
   */
  function SearchPositions(t: Table, city: string, fuel: string): (r: Result<seq<nat>, Error>)
    ensures r.Err? <==> MunicipalityColumn !in t.columns || !IsFuel(t, fuel)
    ensures r.Err? ==> r.error == if MunicipalityColumn !in t.columns then MissingColumn(MunicipalityColumn) else UnknownFuel(fuel)
    ensures r.Ok? ==> |r.value| == Capped(|Candidates(t.rows, city, fuel)|)
    ensures r.Ok? ==> forall a :: 0 <= a < |r.value| ==> r.value[a] < |t.rows| && Qualifies(t.rows[r.value[a]], city, fuel)
    ensures r.Ok? ==> InRange(PriceKeys(t.rows, fuel), r.value) && Ranked(PriceKeys(t.rows, fuel), r.value)
    ensures r.Ok? ==> forall i, a ::
                        (0 <= i < |t.rows| && Qualifies(t.rows[i], city, fuel) && i !in r.value && 0 <= a < |r.value|)
                        ==> Before(PriceKeys(t.rows, fuel), r.value[a], i)
  {
    if MunicipalityColumn !in t.columns then Err(MissingColumn(MunicipalityColumn))
    else if !IsFuel(t, fuel) then Err(UnknownFuel(fuel))
    else
      var keys := PriceKeys(t.rows, fuel);
      var c := Candidates(t.rows, city, fuel);
      Ok(Smallest(keys, c, MaxResults))
  }

  /** The rows at positions `ps`, in that order. */
  function RowsAt(rows: seq<Station>, ps: seq<nat>): (r: seq<Station>)
    requires forall a :: 0 <= a < |ps| ==> ps[a] < |rows|
    ensures |r| == |ps| && forall a :: 0 <= a < |ps| ==> r[a] == rows[ps[a]]
  {
    seq(|ps|, a requires 0 <= a < |ps| => rows[ps[a]])
  }

  /** `keys` holds every row's present price for `fuel` at its position. */
  predicate KeysArePrices(rows: seq<Station>, fuel: string, keys: seq<real>) {
    |keys| == |rows| && forall i :: 0 <= i < |rows| && PriceOf(rows[i], fuel).Some? ==> keys[i] == PriceOf(rows[i], fuel).value
  }

  /** Positions ranked by price give rows whose prices ascend, equal prices in dataset order. */
  lemma {:induction false} RankedRowsAscend(rows: seq<Station>, city: string, fuel: string, keys: seq<real>, ps: seq<nat>, r: seq<Station>)
    requires KeysArePrices(rows, fuel, keys)
    requires forall a :: 0 <= a < |ps| ==> ps[a] < |rows| && Qualifies(rows[ps[a]], city, fuel)
    requires InRange(keys, ps) && Ranked(keys, ps)
    requires |r| == |ps| && forall a :: 0 <= a < |ps| ==> r[a] == rows[ps[a]] && Qualifies(r[a], city, fuel)
    ensures forall a :: 0 <= a < |r| ==> PriceOf(r[a], fuel).Some?
    ensures forall a, b :: 0 <= a < b < |r| ==>
        && PriceOf(r[a], fuel).value <= PriceOf(r[b], fuel).value
        && (PriceOf(r[a], fuel) == PriceOf(r[b], fuel) ==> exists i, j :: 0 <= i < j < |rows| && rows[i] == r[a] && rows[j] == r[b])
  {
    forall a, b | 0 <= a < b < |r|
      ensures PriceOf(r[a], fuel).value <= PriceOf(r[b], fuel).value
      ensures PriceOf(r[a], fuel) == PriceOf(r[b], fuel) ==> exists i, j :: 0 <= i < j < |rows| && rows[i] == r[a] && rows[j] == r[b]
    {
      assert Before(keys, ps[a], ps[b]);
      if PriceOf(r[a], fuel) == PriceOf(r[b], fuel) {
        assert rows[ps[a]] == r[a] && rows[ps[b]] == r[b];
      }
    }
  }

  /** When every qualifying position left out ranks after the chosen ones, no cheaper qualifying row is left out. */
  lemma {:induction false} RankedRowsCheapest(rows: seq<Station>, city: string, fuel: string, keys: seq<real>, ps: seq<nat>, r: seq<Station>)
    requires KeysArePrices(rows, fuel, keys)
    requires forall a :: 0 <= a < |ps| ==> ps[a] < |rows| && Qualifies(rows[ps[a]], city, fuel)
    requires forall i, a :: (0 <= i < |rows| && Qualifies(rows[i], city, fuel) && i !in ps && 0 <= a < |ps|) ==> Before(keys, ps[a], i)
    requires |r| == |ps| && forall a :: 0 <= a < |ps| ==> r[a] == rows[ps[a]] && Qualifies(r[a], city, fuel)
    ensures forall a :: 0 <= a < |r| ==> PriceOf(r[a], fuel).Some?
    ensures forall i, a :: (0 <= i < |rows| && Qualifies(rows[i], city, fuel) && 0 <= a < |r| &&
                      PriceOf(rows[i], fuel).value < PriceOf(r[a], fuel).value) ==> rows[i] in r
  {
    forall i, a | 0 <= i < |rows| && Qualifies(rows[i], city, fuel) && 0 <= a < |r| &&
        PriceOf(rows[i], fuel).value < PriceOf(r[a], fuel).value
      ensures rows[i] in r
    {
      if i !in ps {
        assert false;
      }
      var b :| 0 <= b < |ps| && ps[b] == i;
      assert r[b] == rows[i];
    }
  }

  /**
   * The stations the search returns: at most ten qualifying stations,
   * cheapest first with equal prices in dataset order, and no qualifying
   * station cheaper than a returned one is left out.
   */
  function SearchStations(t: Table, city: string, fuel: string): (r: Result<seq<Station>, Error>)
    ensures r.Err? <==> MunicipalityColumn !in t.columns || !IsFuel(t, fuel)
    ensures r.Err? ==> r.error == if MunicipalityColumn !in t.columns then MissingColumn(MunicipalityColumn) else UnknownFuel(fuel)
    ensures r.Ok? ==> |r.value| == Capped(|Candidates(t.rows, city, fuel)|)
    ensures r.Ok? ==> forall a :: 0 <= a < |r.value| ==> r.value[a] in t.rows && Qualifies(r.value[a], city, fuel)
    ensures r.Ok? ==> forall a, b :: 0 <= a < b < |r.value| ==> PriceOf(r.value[a], fuel).value <= PriceOf(r.value[b], fuel).value
    ensures r.Ok? ==> forall a, b ::
                        (0 <= a < b < |r.value| && PriceOf(r.value[a], fuel) == PriceOf(r.value[b], fuel))
                        ==> exists i, j :: 0 <= i < j < |t.rows| && t.rows[i] == r.value[a] && t.rows[j] == r.value[b]
    ensures r.Ok? ==> forall i, a ::
                        (0 <= i < |t.rows| && Qualifies(t.rows[i], city, fuel) && 0 <= a < |r.value| &&
                         PriceOf(t.rows[i], fuel).value < PriceOf(r.value[a], fuel).value)
                        ==> t.rows[i] in r.value
  {
    var ps := SearchPositions(t, city, fuel);
    if ps.Err? then Err(ps.error)
    else
      var keys := PriceKeys(t.rows, fuel);
      var r := RowsAt(t.rows, ps.value);
      RankedRowsAscend(t.rows, city, fuel, keys, ps.value, r);
      RankedRowsCheapest(t.rows, city, fuel, keys, ps.value, r);
      Ok(r)
  }

  /**
   * The returned prices ascend, and equal prices keep dataset order: the
   * order a stable sort by price gives.
   */
  lemma {:induction false} SearchSortedStable(t: Table, city: string, fuel: string)
    requires MunicipalityColumn in t.columns && IsFuel(t, fuel)
    ensures var r := SearchPositions(t, city, fuel).value;
      forall a, b :: 0 <= a < b < |r| ==>
        && PriceOf(t.rows[r[a]], fuel).value <= PriceOf(t.rows[r[b]], fuel).value
        && (PriceOf(t.rows[r[a]], fuel) == PriceOf(t.rows[r[b]], fuel) ==> r[a] < r[b])
  {
  }

  /**
   * Every qualifying station left out costs at least as much as every one
   * returned, and when it costs the same it comes later in the dataset.
   */
  lemma {:induction false} SearchKeepsCheapest(t: Table, city: string, fuel: string, i: nat, a: nat)
    requires SearchPositions(t, city, fuel).Ok?
    requires i < |t.rows| && Qualifies(t.rows[i], city, fuel) && i !in SearchPositions(t, city, fuel).value
    requires a < |SearchPositions(t, city, fuel).value|
    ensures var j := SearchPositions(t, city, fuel).value[a];
      && PriceOf(t.rows[j], fuel).value <= PriceOf(t.rows[i], fuel).value
      && (PriceOf(t.rows[j], fuel) == PriceOf(t.rows[i], fuel) ==> j < i)
  {
  }

  /** With at most ten qualifying stations, all of them are returned; with none, the result is empty. */
  lemma {:induction false} SearchReturnsAllWhenFew(t: Table, city: string, fuel: string)
    requires MunicipalityColumn in t.columns && IsFuel(t, fuel)
    requires |Candidates(t.rows, city, fuel)| <= MaxResults
    ensures forall i :: 0 <= i < |t.rows| && Qualifies(t.rows[i], city, fuel) ==> i in SearchPositions(t, city, fuel).value
    ensures |Candidates(t.rows, city, fuel)| == 0 ==> SearchPositions(t, city, fuel).value == []
  {
  }

  /**
   * The search gives the same stations as picking, ten times over, the
   * cheapest remaining candidate (the first one on a tie).
   */
  lemma {:induction false} SearchIsRepeatedCheapest(t: Table, city: string, fuel: string)
    requires MunicipalityColumn in t.columns && IsFuel(t, fuel)
    ensures var keys := PriceKeys(t.rows, fuel);
      var c := Candidates(t.rows, city, fuel);
      InRange(keys, c) && Distinct(c) && SearchPositions(t, city, fuel).value == RepeatedLeast(keys, c, MaxResults)
  {
    var keys := PriceKeys(t.rows, fuel);
    var c := Candidates(t.rows, city, fuel);
    SmallestIsRepeatedLeast(keys, c, MaxResults);
  }

  /** The city comparison ignores letter case on both sides. */
  lemma {:induction false} InCityIgnoresCase(s: Station, city: string)
    ensures InCity(s, Lower(city)) <==> InCity(s, city)
  {
    LowerIdempotent(city);
  }
}

=== FILE: seqs.dfy ===
/** Order-preserving selection from sequences, as boolean-mask indexing does in pandas. */
module Seqs {
  import opened Wrappers

  /** The elements of `xs` satisfying `p`, in their original order. */
  function Filter<T(!new)>(xs: seq<T>, p: T -> bool): (r: seq<T>)
    ensures |r| <= |xs|
    ensures forall x :: x in r <==> x in xs && p(x)
    decreases |xs|
  {
    if |xs| == 0 then []
    else
      var front := xs[..|xs| - 1];
      assert forall x :: x in xs <==> x in front || x == xs[|xs| - 1];
      Filter(front, p) + (if p(xs[|xs| - 1]) then [xs[|xs| - 1]] else [])
  }

  /** Selecting from a concatenation selects from each part and keeps the parts in order. */
  lemma {:induction false} FilterAppend<T(!new)>(xs: seq<T>, ys: seq<T>, p: T -> bool)
    ensures Filter(xs + ys, p) == Filter(xs, p) + Filter(ys, p)
    decreases |ys|
  {
    if |ys| > 0 {
      var front := ys[..|ys| - 1];
      assert (xs + ys)[..|xs + ys| - 1] == xs + front;
      FilterAppend(xs, front, p);
    } else {
      assert xs + ys == xs;
    }
  }

  /** The positions of the elements of `xs` satisfying `p`, in increasing order. */
  function Where<T>(xs: seq<T>, p: T -> bool): (r: seq<nat>)
    ensures forall a :: 0 <= a < |r| ==> r[a] < |xs| && p(xs[r[a]])
    ensures forall i :: 0 <= i < |xs| && p(xs[i]) ==> i in r
    ensures forall a, b :: 0 <= a < b < |r| ==> r[a] < r[b]
    decreases |xs|
  {
    if |xs| == 0 then []
    else
      var front := Where(xs[..|xs| - 1], p);
      front + (if p(xs[|xs| - 1]) then [|xs| - 1] else [])
  }

  /** The elements at the selected positions are exactly the filtered elements. */
  lemma {:induction false} WhereFilter<T(!new)>(xs: seq<T>, p: T -> bool)
    ensures |Where(xs, p)| == |Filter(xs, p)|
    ensures forall a :: 0 <= a < |Where(xs, p)| ==> xs[Where(xs, p)[a]] == Filter(xs, p)[a]
    decreases |xs|
  {
    if |xs| > 0 {
      var front := xs[..|xs| - 1];
      WhereFilter(front, p);
    }
  }

  /** Applies `f` to every element and keeps the present results, in order. */
  function FilterMap<A, B>(xs: seq<A>, f: A -> Option<B>): (r: seq<B>)
    ensures |r| <= |xs|
    decreases |xs|
  {
    if |xs| == 0 then []
    else
      FilterMap(xs[..|xs| - 1], f) + match f(xs[|xs| - 1]) case Some(y) => [y] case None => []
  }

  /**
   * The kept results are those of the positions where `f` has a result, in
   * order: result `a` comes from position `Where(xs, p)[a]`.
   */
  lemma {:induction false} FilterMapWhere<A, B>(xs: seq<A>, f: A -> Option<B>, p: A -> bool)
    requires forall x :: p(x) == f(x).Some?
    ensures |FilterMap(xs, f)| == |Where(xs, p)|
    ensures forall a :: 0 <= a < |Where(xs, p)| ==> f(xs[Where(xs, p)[a]]) == Some(FilterMap(xs, f)[a])
    decreases |xs|
  {
    if |xs| > 0 {
      var front := xs[..|xs| - 1];
      var last := xs[|xs| - 1];
      FilterMapWhere(front, f, p);
      var w := Where(front, p);
      var kept := FilterMap(front, f);
      assert Where(xs, p) == w + (if p(last) then [|xs| - 1] else []);
      assert FilterMap(xs, f) == kept + match f(last) case Some(y) => [y] case None => [];
      forall a | 0 <= a < |Where(xs, p)|
        ensures f(xs[Where(xs, p)[a]]) == Some(FilterMap(xs, f)[a])
      {
        if a < |w| {
          assert xs[w[a]] == front[w[a]];
        }
      }
    }
  }

  /** A value is kept exactly when it is the result of `f` on some element. */
  lemma {:induction false} FilterMapMember<A, B>(xs: seq<A>, f: A -> Option<B>)
    ensures forall y :: y in FilterMap(xs, f) <==> exists x :: x in xs && f(x) == Some(y)
    decreases |xs|
  {
    if |xs| > 0 {
      var front := xs[..|xs| - 1];
      FilterMapMember(front, f);
      assert forall x :: x in xs <==> x in front || x == xs[|xs| - 1];
    }
  }

  /** The result of `f` on an element is kept when present. */
  lemma {:induction false} FilterMapHas<A, B>(xs: seq<A>, f: A -> Option<B>, x: A)
    requires x in xs
    ensures f(x).Some? ==> f(x).value in FilterMap(xs, f)
    decreases |xs|
  {
    var front := xs[..|xs| - 1];
    if x in front {
      FilterMapHas(front, f, x);
    }
  }
}

=== FILE: stations.dfy ===
/**
 * The station table after loading: one record per petrol station of the
 * Spanish fuel-price dataset, with its text fields, its fuel prices and its
 * position.
 */
module Stations {
  import opened Wrappers
  import opened Text
  import opened Seqs

  /** The coordinate column names of the dataset. */
  const LatitudeColumn := "Latitud"
  const LongitudeColumn := "Longitud (WGS84)"
  /** The municipality column, compared against the user's city. */
  const MunicipalityColumn := "Municipio"
  /** A column is a price column when its name contains this word. */
  const PriceMarker := "Precio"

  /** A position in decimal degrees. */
  datatype Coord = Coord(lat: real, lon: real)

  /**
   * A loaded station. `text` holds the stripped text fields (every column
   * that is neither a price nor a coordinate and had a value), `prices` one
   * entry per price column, absent when the field did not parse.
   */
  datatype Station = Station(text: map<string, string>, prices: map<string, Option<real>>, location: Coord)

  /** The loaded dataset: its column names in order and its stations in dataset order. */
  datatype Table = Table(columns: seq<string>, rows: seq<Station>)

  /** Why an operation on the table has no result. */
  datatype Error =
    | MissingColumn(name: string)  // a column the operation reads is not in the dataset
    | UnknownFuel(fuel: string)    // the requested fuel is not a price column
    | NoCandidate                  // no station sells the requested fuel

  predicate IsPriceColumn(column: string) {
    Contains(column, PriceMarker)
  }

  /** The fuels a user can choose: the price columns, in column order. */
  function FuelLabels(columns: seq<string>): (r: seq<string>)
    ensures forall c :: c in r <==> c in columns && IsPriceColumn(c)
  {
    Filter(columns, IsPriceColumn)
  }

  /** Fuel labels of consecutive column runs are the labels of each run, in order. */
  lemma {:induction false} FuelLabelsAppend(xs: seq<string>, ys: seq<string>)
    ensures FuelLabels(xs + ys) == FuelLabels(xs) + FuelLabels(ys)
  {
    FilterAppend(xs, ys, IsPriceColumn);
  }

  /** `fuel` names a price column of the table. */
  predicate IsFuel(t: Table, fuel: string) {
    fuel in FuelLabels(t.columns)
  }

  /** The station's price for `fuel`; absent when the field was empty or malformed. */
  function PriceOf(s: Station, fuel: string): Option<real> {
    if fuel in s.prices then s.prices[fuel] else None
  }

  /** The station has a usable price for `fuel`: present and strictly positive. */
  predicate Sells(s: Station, fuel: string) {
    PriceOf(s, fuel).Some? && PriceOf(s, fuel).value > 0.0
  }

  /** The station's municipality, absent when the field had no value. */
  function Municipality(s: Station): Option<string> {
    if MunicipalityColumn in s.text then Some(s.text[MunicipalityColumn]) else None
  }
}

=== FILE: text.dfy ===
/**
 * The string operations the loader and the city filter apply to dataset
 * fields: Python's `str.strip()`, the `str.replace(",", ".")` that turns the
 * Spanish decimal comma into a period, `str.lower()` and the `in` substring
 * test used to recognise price columns.
 */
module Text {

  /** Python's `str.isspace()` character set: the characters `str.strip()` removes. */
  predicate IsSpace(c: char) {
    var n := c as int;
    || (0x09 <= n <= 0x0D) || (0x1C <= n <= 0x20)
    || n == 0x85 || n == 0xA0 || n == 0x1680
    || (0x2000 <= n <= 0x200A)
    || n == 0x2028 || n == 0x2029 || n == 0x202F || n == 0x205F || n == 0x3000
  }

  /** Removes leading whitespace: what is left is a suffix of `s` that does not start with whitespace. */
  function StripLeft(s: string): (r: string)
    ensures |r| <= |s| && r == s[|s| - |r|..]
    ensures forall i :: 0 <= i < |s| - |r| ==> IsSpace(s[i])
    ensures |r| > 0 ==> !IsSpace(r[0])
    decreases |s|
  {
    if |s| > 0 && IsSpace(s[0]) then StripLeft(s[1..]) else s
  }

  /** Removes trailing whitespace: what is left is a prefix of `s` that does not end with whitespace. */
  function StripRight(s: string): (r: string)
    ensures |r| <= |s| && r == s[..|r|]
    ensures forall i :: |r| <= i < |s| ==> IsSpace(s[i])
    ensures |r| > 0 ==> !IsSpace(r[|r| - 1])
    decreases |s|
  {
    if |s| > 0 && IsSpace(s[|s| - 1]) then StripRight(s[..|s| - 1]) else s
  }

  /**
   * `r` is the slice of `s` starting at `i` with only whitespace outside it
   * on either side.
   */
  predicate SliceBetweenSpaces(s: string, r: string, i: int) {
    && 0 <= i <= |s| - |r|
    && r == s[i..i + |r|]
    && (forall k :: 0 <= k < i ==> IsSpace(s[k]))
    && (forall k :: i + |r| <= k < |s| ==> IsSpace(s[k]))
  }

  /**
   * Python's `str.strip()`: a slice of `s` obtained by dropping whitespace at
   * both ends, neither of whose ends is whitespace.
   */
  function Strip(s: string): (r: string)
    ensures |r| <= |s|
    ensures |r| > 0 ==> !IsSpace(r[0]) && !IsSpace(r[|r| - 1])
    ensures exists i :: SliceBetweenSpaces(s, r, i)
  {
    var l := StripLeft(s);
    var r := StripRight(l);
    assert SliceBetweenSpaces(s, r, |s| - |l|);
    r
  }

  /** A string with no whitespace at either end. */
  predicate IsTrimmed(s: string) {
    |s| > 0 ==> !IsSpace(s[0]) && !IsSpace(s[|s| - 1])
  }

  /** Stripping a string that is already trimmed leaves it unchanged. */
  lemma {:induction false} StripTrimmed(s: string)
    requires IsTrimmed(s)
    ensures Strip(s) == s
  {
    assert StripLeft(s) == s;
    assert StripRight(s) == s;
  }

  /** `str.strip()` is idempotent. */
  lemma {:induction false} StripIdempotent(s: string)
    ensures Strip(Strip(s)) == Strip(s)
  {
    StripTrimmed(Strip(s));
  }

  /** Every character of `s` is whitespace. */
  predicate AllSpace(s: string) {
    forall k :: 0 <= k < |s| ==> IsSpace(s[k])
  }

  /** Stripping removes exactly the whitespace padding around a trimmed, non-empty text. */
  lemma {:induction false} StripPadded(lead: string, x: string, trail: string)
    requires AllSpace(lead) && AllSpace(trail) && |x| > 0 && IsTrimmed(x)
    ensures Strip(lead + x + trail) == x
  {
    var s := lead + x + trail;
    var r := Strip(s);
    var i :| SliceBetweenSpaces(s, r, i);
    assert s[|lead|] == x[0];
    assert s[|lead| + |x| - 1] == x[|x| - 1];
    assert i <= |lead| && |lead| + |x| <= i + |r|;
    assert |r| > 0;
    assert s[i] == r[0];
    assert s[i + |r| - 1] == r[|r| - 1];
    assert i == |lead| && i + |r| == |lead| + |x|;
    assert s[|lead|..|lead| + |x|] == x;
  }

  /** `str.replace(",", ".")`: every comma becomes a period, every other character is kept. */
  function ReplaceComma(s: string): (r: string)
    ensures |r| == |s|
    ensures forall i :: 0 <= i < |s| ==> r[i] == (if s[i] == ',' then '.' else s[i])
    ensures ',' !in r
  {
    seq(|s|, i requires 0 <= i < |s| => if s[i] == ',' then '.' else s[i])
  }

  /** A string without commas is left alone by the replacement, so it is idempotent. */
  lemma {:induction false} ReplaceCommaFixes(s: string)
    requires ',' !in s
    ensures ReplaceComma(s) == s
  {
  }

  /** The letters `str.lower()` lowers here: ASCII A-Z and the Latin-1 capitals À-Þ except ×. */
  predicate IsUpper(c: char) {
    ('A' <= c <= 'Z') || ('À' <= c <= 'Þ' && c != '×')
  }

  /** Lower-cases one character; each capital sits 0x20 below its small letter. */
  function LowerChar(c: char): (r: char)
    ensures !IsUpper(r)
    ensures !IsUpper(c) ==> r == c
    ensures IsUpper(c) ==> r as int == c as int + 0x20
  {
    if IsUpper(c) then (c as int + 0x20) as char else c
  }

  /** `str.lower()` on the modelled alphabet, character by character. */
  function Lower(s: string): (r: string)
    ensures |r| == |s|
    ensures forall i :: 0 <= i < |s| ==> r[i] == LowerChar(s[i])
    ensures forall i :: 0 <= i < |r| ==> !IsUpper(r[i])
  {
    seq(|s|, i requires 0 <= i < |s| => LowerChar(s[i]))
  }

  /** Lowering twice is lowering once, so comparing lowered strings is an equivalence. */
  lemma {:induction false} LowerIdempotent(s: string)
    ensures Lower(Lower(s)) == Lower(s)
  {
  }

  /** True when `s` begins with `p`. */
  predicate StartsWith(s: string, p: string) {
    |p| <= |s| && s[..|p|] == p
  }

  /** Python's `p in s` on strings, scanning left to right. */
  predicate Contains(s: string, p: string)
    decreases |s|
  {
    StartsWith(s, p) || (|s| > 0 && Contains(s[1..], p))
  }

  /** `p` occurs in `s` at offset `i`. */
  predicate OccursAt(s: string, p: string, i: int) {
    0 <= i <= |s| - |p| && s[i..i + |p|] == p
  }

  /** A text without the first character of `p` does not contain `p`. */
  lemma {:induction false} ContainsNeedsHead(s: string, p: string)
    requires |p| > 0 && p[0] !in s
    ensures !Contains(s, p)
    decreases |s|
  {
    if |s| > 0 {
      ContainsNeedsHead(s[1..], p);
    }
  }

  /** The scan finds `p` exactly when `p` occurs at some offset of `s`. */
  lemma {:induction false} ContainsIff(s: string, p: string)
    ensures Contains(s, p) <==> exists i :: OccursAt(s, p, i)
    decreases |s|
  {
    if StartsWith(s, p) {
      assert OccursAt(s, p, 0);
    } else if |s| > 0 {
      ContainsIff(s[1..], p);
      if exists i :: OccursAt(s, p, i) {
        var i :| OccursAt(s, p, i);
        assert i != 0;
        assert OccursAt(s[1..], p, i - 1);
      }
      if Contains(s[1..], p) {
        var i :| OccursAt(s[1..], p, i);
        assert OccursAt(s, p, i + 1);
      }
    }
  }
}

=== FILE: wrappers.dfy ===
/** Option and Result, the failure-carrying values the station model returns. */
module Wrappers {

  /** A value that may be missing: pandas' NaN for a price or a coordinate. */
  datatype Option<+T> = None | Some(value: T) {

    /** Returns the value inside Some, or `default` for None. */
    function GetOr(default: T): T {
      match this
      case Some(v) => v
      case None => default
    }
  }

  /** Either a computed value or the error the program would raise instead. */
  datatype Result<+R, +E> = Ok(value: R) | Err(error: E)
}
